=== FILE: README.md ===
# promingit core in Dafny

This project models the core of promingit. promingit reads a `git log` dump
in its own record format and computes per-author commit statistics.

Three Python files form the core:

- `models.py` (module `Models`, files `models.dfy` and `text.dfy`) holds the
  entities:
  - a `FileChange` is one numstat line. Its counts are read with `int()`;
    both become zero when either is not a number.
  - a `File` takes its type from the path. It is rejected with
    `InvalidFileType` unless the type is on the allow-list `.py .html .js .css .rb`.
  - a `Commit` has a comment and a list of file changes. The parser appends
    to both in place. The commit sums its changes in four loops.
  - an `Author` has a list of commits that grows in place.
- `parser.py` (module `LogParser`, file `parser.dfy`) is a line-driven reader.
  - Two flags, `summary_start` and `comment_start`, are switched by the prefix
    markers `start`, `startcomment` and `end`.
  - Every other line becomes a commit (the summary line), a comment fragment
    or a file change.
  - Each is recorded in place: in the author registry (keyed by the scrambled
    email, `email[:3] + email[-3:]`), in the file registry (keyed by path) and
    in the flat lists.
- `statistics.py` (module `StatisticsEngine`, file `statistics.dfy`) attaches
  nine metrics to every author:
  - new and deleted lines;
  - commits per working day, clustered by an eight-hour gap;
  - files per commit and new lines per commit;
  - the shares of commits under 25 and under 500 changed lines;
  - the share of new lines in test files;
  - the number of merge commits.

`Text` models the Python string operations the code relies on:
- slices with negative and out-of-range bounds;
- `str.rfind`, the substring test `in` and `str.split`;
- `int()`.

## How the model is built

The classes whose attributes the source updates in place are Dafny classes with
those fields:
- `Models.Commit` and `Models.Author`;
- `LogParser.Parser`, whose list and dictionary attributes are `seq` and `map` fields.

`Parser.View()` collects the parser's state, together with the lists held inside
the author and commit objects, into a `Records` value.

Each branch of `process_line` is specified by a function on `Records`:
- `WithComment`, `WithCommit` and `WithFileChange`;
- `Step` selects the branch that `Classify` picks, in the source's branch order.

`Consistent` is the invariant that every step keeps. It says that:
- the registries and lists agree;
- emails and paths are distinct;
- every registered path is accepted by `File`;
- every author holds a commit;
- the current author holds the latest commit.

`ReadCycle` returns a trace, that is, a run of records with one `Step` between
each pair of consecutive entries, starting at the state before the call and
ending at the state after it.

Every metric depends only on what each commit records:
- its author time;
- its comment;
- its file changes.

These are the `CommitFacts`. The metrics are therefore functions of the
commits' facts, and each `get_*` method that walks the commit objects is
proved to compute its function.

The cadence loop of `get_commits_per_day` is proved equal to a reference count
of days that looks only at the eight-hour gap (`WalkSpec`, `CapNeverDecides`).

### Behaviour of the code worth knowing

- `email[:3] + email[-3:]` turns `a@b.com` into `a@bcom`
  (`LogParser.ScrambleExamples`).
- An author with no new lines makes statistics.py:70 divide by zero
  (`ZeroDivisionError`). The model keeps the division and requires at least
  one new line. The ratio is then 0 exactly when there are no test lines
  (`StatisticsEngine.TestLineRatio`).
- `get_commits_per_day` measures the day's span from the previous commit, not
  from the day's first commit. Whenever the 18-hour test is reached, the span
  is under eight hours, so that test never decides a step
  (`StatisticsEngine.CapNeverDecides`).
- A comment line that begins with `start` is taken as a `start` marker,
  because the marker test comes first (`LogParser.CommentLineStartingWithStart`).
  - That line leaves both flags set.
  - After the comment's `end`, the summary is still open, so the numstat lines
    that follow are taken as summary lines.
  - Having no `;` fields, such a line makes `map_parameters` raise `IndexError`
    (parser.py:88-90) (`LogParser.StrayStartThenNumstat`).

## Model

| member | source | states |
|---|---|---|
| Text.Slice | models.py:28 | `s[i:j]` with Python's bound rules: within bounds it is the ordinary slice, an empty or reversed range gives "", and the result is never longer than `s` |
| Text.RFindSpec | models.py:28 | `rfind` gives -1 exactly when the character is absent, and otherwise an index holding it with no later occurrence |
| Text.ContainsAt | models.py:89 | `t in s` holds exactly when `t` occurs in `s` at some index |
| Text.ContainsExtended | parser.py:66 | text found in a string is still found after text is added on either side |
| Text.ContainsShort | models.py:36 | a string no longer than `t` contains `t` only when it equals `t`; so `'test' in name[:4]` means the name starts with "test" |
| Text.Split | parser.py:69 | `split` yields at least one piece, and no piece holds the separator |
| Text.JoinSplit | parser.py:69 | joining the pieces of a split with the separator restores the line |
| Text.SplitJoin | parser.py:88 | splitting a join of separator-free pieces gives the pieces back |
| Text.ParseInt | models.py:15-16 | `int()` on a string: surrounding white space, an optional sign and at least one digit give the number, and anything else fails (`ValueError`); its contract is `ParseDecimal` and `DashIsNotANumber` |
| Text.ParseDecimal | models.py:15-16 | `int()` reads back every decimal count git writes |
| Text.DashIsNotANumber | models.py:14-19 | git's binary-file marker "-" is not a number, so `int()` raises |
| Models.FileType | models.py:28 | `path[path.rfind('.'):-1]`, the file type; its contract is `FileTypeSpec` |
| Models.FileTypeSpec | models.py:28 | the file type is empty when the path has no dot, and when its last dot is its final character; otherwise it runs from the path's last dot up to, but not including, the final character |
| Models.FileTypeOf | models.py:28 | a path `stem.ext` plus one final non-dot character has type `.ext` |
| Models.BaseName | models.py:32 | `path[path.rfind('/')+1:]`, the file name; its contract is `BaseNameSpec` |
| Models.BaseNameSpec | models.py:32 | the name is the tail of the path after its last slash (it holds no slash and a slash precedes it), and the whole path when there is no slash |
| Models.NewFile | models.py:26-32 | `File(path)`: fails with `InvalidFileType` when the type is off the allow-list, and otherwise gives the File with the path, its type and its name; its contract is `NewFileSpec` |
| Models.NewFileSpec | models.py:26-32 | `File(path)` succeeds exactly when the type is on the allow-list, never for a path without a dot, and then carries the path, its type and its base name |
| Models.AcceptedByExtension | models.py:28-30 | a path with an extension is accepted exactly when that extension is on the allow-list |
| Models.IsTest | models.py:34-36 | `is_test` holds exactly when the name begins with "test" or contains "spec.rb" |
| Models.MakeFileChange | models.py:11-23 | both counts are read with `int()`, and both become 0 when either fails; changes are their sum and new lines the excess of additions over deletions, clamped at 0 |
| Models.NumstatCounts | models.py:14-20 | the counts git writes are read back exactly, and changes are their sum |
| Models.BinaryFileChange | models.py:17-23 | a binary file ("-" counts) contributes no changes and no new lines |
| Models.TestNewLinesBound | models.py:79-85 | the new lines in test files never exceed all new lines |
| Models.NoTestFileNoTestLines | models.py:79-85 | without a test file among the changes there are no test lines |
| Models.NewLinesWithinChanges | models.py:20-23 | with non-negative counts, new lines never exceed changed lines |
| Models.Commit.constructor | models.py:49-56 | both times are read as numbers; a new commit keeps the hash, committer email and branch, and has an empty comment, no file changes, zero counts and no merge marker |
| Models.Commit.NumberOfChanges | models.py:58-63 | the loop returns the sum of additions plus deletions over the file changes |
| Models.Commit.NumberOfNewLines | models.py:65-70 | the loop returns the sum of the new lines over the file changes |
| Models.Commit.NumberOfDeletions | models.py:72-77 | the loop returns the sum of the deletions over the file changes |
| Models.Commit.NumberOfTestNewLines | models.py:79-85 | the loop returns the sum of new lines over test files only, which is between 0 and all new lines |
| Models.Commit.IsMergeCommit | models.py:87-89 | `is_merge_commit` holds exactly when "Merge branch" occurs at some index of the comment |
| Models.MergeCommentStays | parser.py:65-66 | appending a comment line never turns a merge commit back into an ordinary one |
| Models.Author.constructor | models.py:40-42 | a new author has the given email and no commits (and no metrics yet) |
| Models.CommitListsAfterAppend | parser.py:63 | appending a commit to author k changes author k's commit list only, by that commit |
| Models.CommentsAfterAppend | parser.py:66 | extending commit k's comment changes that comment only |
| Models.ChangeListsAfterAppend | parser.py:85 | appending a change to commit k changes commit k's change list only, by that change |
| LogParser.Scramble | parser.py:5-8 | `email[:3] + email[-3:]`: the first three and last three characters, or the email twice when it is shorter than three |
| LogParser.ScrambleExamples | parser.py:8 | "a@b.com" becomes "a@bcom", and "ab" becomes "abab" |
| LogParser.IsStart | parser.py:101-102 | `line[:5] == 'start'` holds exactly when the line begins with "start" |
| LogParser.IsEnd | parser.py:104-105 | `line[:3] == 'end'` holds exactly when the line begins with "end" |
| LogParser.IsStartComment | parser.py:107-108 | `line[:12] == 'startcomment'` holds exactly when the line begins with "startcomment" |
| LogParser.StartCommentIsStart | parser.py:101-108 | every "startcomment" marker also passes the "start" test |
| LogParser.Classify | parser.py:34-50 | the branch `process_line` takes: a line of length at most 1 is skipped, and each other branch is taken only under its flag and prefix conditions, in the source's order |
| LogParser.StartCommentOutsideSummary | parser.py:38-42 | outside a summary, "startcomment" opens a summary instead of a comment |
| LogParser.CommentLineStartingWithStart | parser.py:38-46 | inside a comment, every line that begins with "start" is taken as a `start` marker and opens a summary |
| LogParser.StrayStartThenNumstat | parser.py:38-50 | after such a line and the comment's `end`, the summary is still open, so a numstat line is taken as a summary line that `map_parameters` cannot digest |
| LogParser.MapParameters | parser.py:87-99 | `map_parameters`: the first six `;` fields become the commit's parameters and the author's scrambled email; its contract is `MapParametersOfFields` |
| LogParser.MapParametersOfFields | parser.py:87-99 | the six `;` fields go to hash, scrambled author email, author time, scrambled committer email, committer time and branch, and fields after the sixth are ignored |
| LogParser.CommentRun | parser.py:43-46 | comment text read inside a comment leaves the flags alone and adds no commit |
| LogParser.ChangeRun | parser.py:49-50 | numstat lines read outside any block leave the flags alone and add no commit |
| LogParser.RecordBlock | parser.py:34-50 | one record of the format (`start`, summary, `startcomment`, comment lines, `end`, numstat lines) returns the flags to their initial values and adds exactly one commit |
| LogParser.AuthorIndex | parser.py:58-61 | every listed author's email is registered, and each registry entry is an author with that email |
| LogParser.AuthorIndexSize | parser.py:58-61 | with distinct emails the registry holds one entry per author, and each author is found under its own email |
| LogParser.DistinctAuthorObjects | parser.py:58-61 | distinct emails mean distinct author objects |
| LogParser.FileIndex | parser.py:72-76 | every listed File's path is registered, and each registry entry is a File with that path |
| LogParser.AuthorRegistryAdd | parser.py:58-61 | registering an author under an unseen email keeps the list and registry in agreement, and places it last |
| LogParser.FileRegistryAdd | parser.py:72-76 | registering an accepted File under an unseen path keeps the list and registry in agreement |
| LogParser.RegisteredIsAccepted | parser.py:72-80 | a registered path names the File that `File(path)` accepts |
| LogParser.RejectedIsUnregistered | parser.py:72-78 | a path that `File(path)` rejects is never registered, so it is tried again and dropped each time |
| LogParser.ChangesAfterRecording | parser.py:80-85 | recording a change with a registered File in the flat list and in the latest commit keeps every change registered |
| LogParser.CommitsHeldByKnown | parser.py:58-63 | a new commit filed under an existing author keeps the commits distinct and all held |
| LogParser.CommitsHeldByNew | parser.py:58-63 | a new commit filed under a new author keeps the commits distinct and all held |
| LogParser.WithComment | parser.py:65-66 | `init_comment` on the records: the latest commit's comment grows by the line and one space; its contract is `CommentKeepsConsistent` |
| LogParser.CommentKeepsConsistent | parser.py:65-66 | a comment line keeps the records consistent, and a merge commit stays one |
| LogParser.WithCommit | parser.py:52-63 | `init_commit_from_summary` on the records: the commit is listed with an empty comment and no changes, an unseen email gets a new registered author, and the author becomes current and takes the commit; its contracts are `WithCommitSteps` and `CommitKeepsConsistent` |
| LogParser.WithCommitSteps | parser.py:52-63 | `init_commit_from_summary` step by step: list the commit, register an unseen author, make it current and give it the commit, yields the specified records |
| LogParser.CommitKeepsConsistent | parser.py:52-63 | a summary line keeps the records consistent, adds one commit, adds an author only for an unseen email, and files the commit last under the current author |
| LogParser.CommitByKnownAuthor | parser.py:58-63 | for a registered email, the author list is unchanged and the registered author becomes current and holds the commit last |
| LogParser.CommitByNewAuthor | parser.py:58-63 | for an unseen email, one new author is listed last, becomes current and holds the commit |
| LogParser.WithFileChange | parser.py:68-85 | `init_file_change` on the records: a path neither registered nor accepted changes nothing; otherwise its File is reused or registered once, and the change joins the flat list and the latest commit; its contracts are `WithFileChangeRecords` and `FileChangeKeepsConsistent` |
| LogParser.WithFileChangeRecords | parser.py:68-85 | for a registered or accepted path, the File is reused or registered once, and the change joins the flat list and the latest commit |
| LogParser.FileChangeKeepsConsistent | parser.py:68-85 | a numstat line keeps the records consistent |
| LogParser.Step | parser.py:34-50 | `process_line` on the records: the branch `Classify` picks, with markers and short lines changing no records; its contract is `StepKeepsConsistent` |
| LogParser.StepKeepsConsistent | parser.py:34-50 | every line keeps the records consistent, and only a summary line adds a commit |
| LogParser.FlagsAfterAppend | parser.py:31-32 | the flags after one more line are what that line's branch makes of the flags before it |
| LogParser.RunExtend | parser.py:31-32 | a trace over the first i lines plus the step of line i is a trace over the first i + 1 lines |
| LogParser.ContainerAuthorsHaveCommits | parser.py:110-118 | every registered author of the container holds at least one commit, each in the container's commit list |
| LogParser.Parser.constructor | parser.py:12-32 | starting from empty records and both flags off, the records pass through a trace of the lines, the flags end as the lines leave them, and each summary line adds one commit |
| LogParser.Parser.ReadCycle | parser.py:29-32 | every line goes through `process_line` in order: a trace of steps leads from the old records to the new ones, with the flags and commit count as the lines determine |
| LogParser.Parser.ReadLine | parser.py:31-32 | one pass of the loop extends the trace by the step of line i |
| LogParser.Parser.ProcessLine | parser.py:34-50 | the records take the step the line's branch specifies and stay consistent; the flags move as the branch says, and only a summary line adds a commit |
| LogParser.Parser.Dispatch | parser.py:38-50 | the if-chain hands the line to the branch `Classify` picks; the new records are that branch's step |
| LogParser.Parser.SetFlags | parser.py:38-44 | the marker branches set the flags and change no records |
| LogParser.Parser.CommentLine | parser.py:45-46 | the comment branch takes the comment step |
| LogParser.Parser.SummaryLine | parser.py:47-48 | the summary branch takes the commit step |
| LogParser.Parser.NumstatLine | parser.py:49-50 | the numstat branch takes the file-change step, which changes nothing for a rejected path |
| LogParser.Parser.LatestCommitOfCurrentAuthor | parser.py:62-66 | once a commit has been read, the current author's last commit is the latest commit read |
| LogParser.Parser.InitComment | parser.py:65-66 | the latest commit's comment grows by the line and one space, and nothing else changes |
| LogParser.Parser.InitCommitFromSummary | parser.py:52-63 | appends one new commit with the mapped fields, registers the author if the email is unseen, makes it current and files the commit under it |
| LogParser.Parser.RecordCommitOfKnownAuthor | parser.py:56-63 | for a registered email, the commit is listed and filed under the registered author, who becomes current |
| LogParser.Parser.RecordCommitOfNewAuthor | parser.py:56-63 | for an unseen email, a new author is listed last and registered, becomes current and takes the commit |
| LogParser.Parser.MakeCurrent | parser.py:62 | the author becomes current, and nothing else changes |
| LogParser.Parser.AppendCommit | parser.py:55-56 | the commit joins the list with an empty comment and no changes |
| LogParser.Parser.RegisterAuthor | parser.py:59-61 | a new author with no commits is listed last and registered under the email |
| LogParser.Parser.FileCommit | parser.py:63 | the current author takes the commit, and no other author's commits move |
| LogParser.Parser.InitFileChange | parser.py:68-85 | a new path is registered only when accepted; a rejected path changes nothing; otherwise the change joins the flat list and the latest commit |
| LogParser.Parser.RegisterFile | parser.py:73-76 | the accepted File is registered under its path and listed |
| LogParser.Parser.RecordChange | parser.py:82-85 | the change joins the flat list and the latest commit, and no other commit's changes move |
| LogParser.Parser.CreateDataContainer | parser.py:110-118 | the container holds the parser's six collections, the author and commit lists, the author registry, the file list and registry and the flat change list, and its registries agree with its lists |
| StatisticsEngine.FactsMerge | models.py:87-89 | the facts of a commit are a merge exactly when the commit is a merge commit |
| StatisticsEngine.Days | statistics.py:28-42 | the reference number of days among n commits lies between 1 and n |
| StatisticsEngine.WalkSpec | statistics.py:28-41 | after n commits the loop holds one day per gap of eight hours or more; every day holds a commit, the days add up to n, and the span stays under eight hours |
| StatisticsEngine.WalkShape | statistics.py:34-41 | the loop holds as many days as the reference count, and the span stays under eight hours |
| StatisticsEngine.WalkCounts | statistics.py:34-41 | the day counts are each at least one and add up to the number of commits |
| StatisticsEngine.CapNeverDecides | statistics.py:35-40 | each step of the loop is the step that looks only at the eight-hour gap, so the 18-hour cap never decides |
| StatisticsEngine.CommitsPerDay | statistics.py:42 | commits per day is at least one and at most the number of commits |
| StatisticsEngine.GetCommitsPerDay | statistics.py:28-42 | the guarded loop gives the number of commits over the reference number of days |
| StatisticsEngine.FilesPerCommit | statistics.py:48 | files per commit is non-negative, and multiplied by the number of commits it gives the number of file changes |
| StatisticsEngine.GetFilesPerCommit | statistics.py:44-48 | the loop gives the number of file changes over the number of commits |
| StatisticsEngine.CountUnder | statistics.py:50-54 | the count of small commits is at most the number of commits |
| StatisticsEngine.CountUnderMonotone | statistics.py:50-54 | raising the size limit never lowers the count |
| StatisticsEngine.CountUnderAll | statistics.py:50-54 | every commit counts exactly when none reaches the size limit |
| StatisticsEngine.ShareUnder | statistics.py:55 | the share of small commits lies within [0, 1] |
| StatisticsEngine.ShareUnderMonotone | statistics.py:17-18 | the share under 500 lines is never below the share under 25 lines |
| StatisticsEngine.GetCommitsUnder | statistics.py:50-55 | the loop gives the share of commits whose `number_of_changes` is below the limit |
| StatisticsEngine.AllNewLines | statistics.py:57-58 | `get_all_new_lines`: the sum of the commits' new lines; its contracts are `TotalsConcat` and `TestLinesWithinNewLines` |
| StatisticsEngine.AllDeletedLines | statistics.py:60-61 | `get_all_deleted_lines`: the sum of the commits' deletions; its contract is `TotalsConcat` |
| StatisticsEngine.AllChangedLines | statistics.py:63-64 | `get_all_changed_lines`: the sum of the commits' changes; its contracts are `TotalsConcat` and `NewLinesWithinChangedLines` |
| StatisticsEngine.TotalsConcat | statistics.py:57-64 | the line totals over a split commit list are the sums of the totals over its parts |
| StatisticsEngine.TestLinesWithinNewLines | statistics.py:69-70 | test new lines never exceed all new lines |
| StatisticsEngine.NewLinesWithinChangedLines | statistics.py:57-64 | with counts as git writes them, new lines never exceed changed lines |
| StatisticsEngine.TestLineRatio | statistics.py:69-70 | the test-line ratio lies within [0, 1], and is 0 exactly when no new line is in a test file |
| StatisticsEngine.AddedLinesPerCommit | statistics.py:72-73 | new lines per commit lies between 0 and the new lines, and multiplied by the number of commits it gives the new lines back |
| StatisticsEngine.MergeCommits | statistics.py:66-67 | the number of merge commits is at most the number of commits, and is 0 exactly when no commit is a merge |
| StatisticsEngine.MetricsSound | statistics.py:10-20 | the bounds every metric keeps: commits per day within [1, n], non-negative files per commit, the share under 25 at most the share under 500 (both within [0, 1]), a test ratio within [0, 1], and at most n merges |
| StatisticsEngine.AuthorMetrics | statistics.py:11-20 | computes the nine metrics in the source's order, equal to the metrics of the commits' facts |
| StatisticsEngine.Measure | statistics.py:12-20 | attaches the metrics of its commits' facts to one author |
| StatisticsEngine.Statistics.constructor | statistics.py:5-8 | takes the container's author and file registries; `commits_per_day` starts unset |
| StatisticsEngine.Statistics.ExtractStatistics | statistics.py:10-20 | every registered author ends with the metrics of the facts its commits recorded on entry; only the authors' metrics change |
| StatisticsEngine.Statistics.MeasureKey | statistics.py:11-20 | one pass of the loop measures the author under one key, and leaves the authors measured before it as they were |

## Left out

- Models.Commit.constructor: reads each time with `ParseInt`, so it accepts only whole-number strings. The source's `float()` also accepts fractions and exponents such as "1000000000.5" and "1e9", and raises `ValueError` on other strings. The model requires whole-number times, which is what git writes for `%at`/`%ct`.
- Models.Commit.constructor: keeps times as seconds since the epoch. The source converts them to naive local datetimes, so a daylight-saving change shifts a gap by an hour. That shift is not modelled.
- LogParser.SummaryWellFormed: requires the two time fields to be whole numbers, for the same reason.
- Models.Commit.constructor: accepts any whole number of seconds. The source's `datetime.datetime.fromtimestamp` (models.py:51, :53) raises `ValueError` or `OverflowError` for a time outside the range of its local-time conversion, such as one after the year 9999. The bound depends on the platform and the time zone, so the model has none.
- LogParser.Admissible: excludes the lines on which the source raises an exception:
  - a comment line before any commit (`None.commits` at parser.py:66);
  - a summary line with fewer than six `;` fields (`IndexError` at parser.py:88-97);
  - a numstat line that does not split into three tab-separated fields (`ValueError` at parser.py:70);
  - an accepted path before any commit. The source first registers the File and appends the change to the flat list (parser.py:74-83), then fails at parser.py:85. That partial update is not modelled.
- LogParser.Admissible: does not exclude a summary line whose author or commit time is out of range for `datetime.datetime.fromtimestamp` (models.py:51, :53), such as `abc;a@b.com;99999999999999;a@b.com;1;main`. The source raises inside `Commit(...)`, while the model records the commit.
- LogParser.Feedable: requires every line of a run to be admissible in the state it meets. `LogParser.Parser.constructor`, `LogParser.Parser.ReadCycle` and `LogParser.Parser.ProcessLine` inherit this requirement. Apart from the out-of-range times above, a log that makes the source raise is outside the model.
- Text.ParseInt: accepts only ASCII digits, an optional sign and ASCII white space. Python's `int()` also accepts underscores between digits ("1_000"), non-ASCII digits and non-ASCII white space. The ASCII white space it strips, including the separators 0x1C to 0x1F, is accepted.
- StatisticsEngine.TestLineRatio: requires the author to have at least one new line. The source raises `ZeroDivisionError` at statistics.py:70.
- StatisticsEngine.ExpectedMetrics: has the same requirement, for the same reason.
- StatisticsEngine.AuthorMetrics: has the same requirement. At the point the source fails, it has already set seven attributes on that author.
- StatisticsEngine.Statistics.ExtractStatistics: requires every author to have at least one new line. When the source fails on one author, every author visited before it already has all nine attributes. That partial result is not modelled.
- StatisticsEngine.Statistics.ExtractStatistics: visits the keys in an arbitrary order, not the dictionary's insertion order. Each author's metrics depend only on that author's commits, so the final state is the same.
- StatisticsEngine.CommitsPerDay: every ratio (also `FilesPerCommit`, `ShareUnder`, `TestLineRatio` and `AddedLinesPerCommit`) is an exact real quotient. The source divides in floating point, and its rounding is not modelled.
- LogParser.Parser.constructor: takes the log's lines as a parameter. `open_file`, the file path and `file.readlines()` are I/O, and are not modelled.
- Models.Author: the nine metrics are one `Metrics` record in the `metrics` field. The source sets nine separate attributes with `setattr`.
- `print_authors` prints a table, so it is presentation only.
- `per_author_statistics` is a no-op.
- `__str__` of `Author` and `Commit` is presentation only.
- `get_all_changed_lines` is never called by the source. It is modelled as `AllChangedLines`, which `TotalsConcat` and `NewLinesWithinChangedLines` state properties of.
- `data_container.py` is not part of this model; `LogParser.DataContainer` stands for the record it builds.
- `main.py`, `serializer.py` and `visualisation.py` (orchestration, output and charts) are not part of this model.
- `Commit.commit_email`, `commit_time`, `short_hash` and `branch` are stored as the source stores them. No metric reads them.

=== FILE: models.dfy ===
/** The entity records of models.py: File and FileChange are values fixed at
    construction; Commit and Author are objects whose comment, file-change list
    and commit list the parser appends to in place. */
module Models {
  import opened Wrappers
  import opened Text

  /** The extension allow-list and its switch (models.py:3-4). */
  const AllowedFileTypes: seq<string> := [".py", ".html", ".js", ".css", ".rb"]
  const EnforceFileTypes: bool := true

  /** The comment text that marks a merge commit. */
  const MergeMarker: string := "Merge branch"

  function Sum(s: seq<int>): int
  {
    if s == [] then 0 else Sum(s[..|s| - 1]) + s[|s| - 1]
  }

  lemma SumAppend(s: seq<int>, x: int)
    ensures Sum(s + [x]) == Sum(s) + x
  {
    assert (s + [x])[..|s|] == s;
  }

  /** The length of each sequence, in order. */
  function Lengths<T>(s: seq<seq<T>>): (r: seq<int>)
    ensures |r| == |s| && forall i :: 0 <= i < |s| ==> r[i] == |s[i]|
  {
    seq(|s|, i requires 0 <= i < |s| => |s[i]|)
  }

  /** Raising one entry by one raises the sum by one. */
  lemma {:induction false} SumBump(s: seq<int>, k: nat)
    requires k < |s|
    ensures Sum(s[k := s[k] + 1]) == Sum(s) + 1
  {
    var t := s[k := s[k] + 1];
    if k == |s| - 1 {
      assert t[..|t| - 1] == s[..|s| - 1];
    } else {
      assert t[..|t| - 1] == s[..|s| - 1][k := s[k] + 1];
      SumBump(s[..|s| - 1], k);
    }
  }

  // ---------------------------------------------------------------- File

  datatype InvalidFileType = InvalidFileType

  datatype File = File(path: string, fileType: string, name: string)

  /** `path[path.rfind('.'):-1]`: from the last dot up to, but not including,
      the final character (the line's newline). */
  function FileType(path: string): string
  {
    Slice(path, RFind(path, '.'), -1)
  }

  /** A type is empty when the path has no dot, and when its last dot is its
      final character. Otherwise it runs from the last dot of the path up to,
      but not including, the final character: a dot and then no further dot. */
  lemma FileTypeSpec(path: string)
    ensures '.' !in path ==> FileType(path) == ""
    ensures var t := FileType(path);
      t == "" && '.' in path ==> path[|path| - 1] == '.'
    ensures var t := FileType(path);
      t != "" ==>
        && |t| < |path| && t == path[|path| - |t| - 1..|path| - 1]
        && t[0] == '.' && '.' !in path[|path| - |t|..]
        && '.' !in t[1..] && t + [path[|path| - 1]] == path[|path| - |t| - 1..]
  {
    RFindSpec(path, '.');
    var dot := RFind(path, '.');
    var t := FileType(path);
    if dot >= 0 {
      if dot < |path| - 1 {
        assert t == path[dot..|path| - 1];
        assert path[dot + 1..] == t[1..] + [path[|path| - 1]];
        assert path[|path| - |t|..] == path[dot + 1..];
      } else {
        assert t == "";
      }
    }
  }

  /** A path "stem.ext" followed by one final character that is not a dot has type ".ext". */
  lemma FileTypeOf(stem: string, ext: string, end: char)
    requires '.' !in ext && end != '.'
    ensures FileType(stem + "." + ext + [end]) == "." + ext
  {
    var p := stem + "." + ext + [end];
    RFindSpec(p, '.');
    var dot := RFind(p, '.');
    assert p[|stem|] == '.';
    assert p[|stem| + 1..] == ext + [end];
    assert dot == |stem|;
    assert p[|stem|..|p| - 1] == "." + ext;
  }

  /** `path[path.rfind('/') + 1:]`: the part after the last slash. */
  function BaseName(path: string): string
  {
    Slice(path, RFind(path, '/') + 1, |path|)
  }

  /** The name is the tail of the path after its last slash, and the whole
      path when it has no slash. */
  lemma BaseNameSpec(path: string)
    ensures var name := BaseName(path);
      && '/' !in name
      && |name| <= |path| && name == path[|path| - |name|..]
      && ('/' !in path ==> name == path)
      && ('/' in path ==> |name| < |path| && path[|path| - |name| - 1] == '/')
  {
    RFindSpec(path, '/');
  }

  /** `File(path)`: rejected with InvalidFileType unless the type is allowed. */
  function NewFile(path: string): Result<File, InvalidFileType>
  {
    var fileType := FileType(path);
    if EnforceFileTypes && fileType !in AllowedFileTypes then Failure(InvalidFileType)
    else Success(File(path, fileType, BaseName(path)))
  }

  /** A path is accepted exactly when its type is on the allow-list, never
      without a dot, and the File carries the path, its type and its base name. */
  lemma NewFileSpec(path: string)
    ensures NewFile(path).Success? <==> FileType(path) in AllowedFileTypes
    ensures '.' !in path ==> NewFile(path).Failure?
    ensures NewFile(path).Success? ==>
      NewFile(path).value == File(path, FileType(path), BaseName(path))
  {
    FileTypeSpec(path);
  }

  /** A path with a final extension is accepted exactly when that extension is on the allow-list. */
  lemma AcceptedByExtension(stem: string, ext: string, end: char)
    requires '.' !in ext && end != '.'
    ensures NewFile(stem + "." + ext + [end]).Success? <==> "." + ext in AllowedFileTypes
  {
    FileTypeOf(stem, ext, end);
  }

  /** `is_test`: the name begins with "test" or contains "spec.rb". */
  function IsTest(f: File): (b: bool)
    ensures b <==> "test" <= f.name || Contains(f.name, "spec.rb")
  {
    var head := Slice(f.name, 0, 4);
    ContainsShort(head, "test");
    assert |f.name| >= 4 ==> head == f.name[..4];
    Contains(head, "test") || Contains(f.name, "spec.rb")
  }

  // ---------------------------------------------------------- FileChange

  /** One numstat line of a commit; changes and newLines are derived at construction. */
  datatype FileChange = FileChange(file: File, additions: int, deletions: int, changes: int, newLines: nat)

  /** `FileChange(file, additions, deletions)`: both counts are read with int();
      if either fails, both become 0. */
  function MakeFileChange(file: File, additions: string, deletions: string): (fc: FileChange)
    ensures fc.file == file
    ensures fc.changes == fc.additions + fc.deletions
    ensures fc.newLines == if fc.additions > fc.deletions then fc.additions - fc.deletions else 0
    ensures ParseInt(additions).Some? && ParseInt(deletions).Some? ==>
      fc.additions == ParseInt(additions).value && fc.deletions == ParseInt(deletions).value
    ensures ParseInt(additions).None? || ParseInt(deletions).None? ==>
      fc.additions == 0 && fc.deletions == 0 && fc.changes == 0 && fc.newLines == 0
  {
    var parsed := ParseInt(additions).Some? && ParseInt(deletions).Some?;
    var a := if parsed then ParseInt(additions).value else 0;
    var d := if parsed then ParseInt(deletions).value else 0;
    var newLines := a - d;
    FileChange(file, a, d, a + d, if newLines < 0 then 0 else newLines)
  }

  /** The counts git writes are read back exactly. */
  lemma NumstatCounts(file: File, a: nat, d: nat)
    ensures var fc := MakeFileChange(file, Decimal(a), Decimal(d));
      fc.additions == a && fc.deletions == d && fc.changes == a + d
  {
    ParseDecimal(a);
    ParseDecimal(d);
  }

  /** A binary file ("-" for both counts) contributes nothing. */
  lemma BinaryFileChange(file: File)
    ensures MakeFileChange(file, "-", "-").changes == 0
    ensures MakeFileChange(file, "-", "-").newLines == 0
  {
    DashIsNotANumber();
  }

  // ------------------------------------ sums over a commit's file changes

  function TotalChanges(fcs: seq<FileChange>): int
  {
    if fcs == [] then 0
    else TotalChanges(fcs[..|fcs| - 1]) + fcs[|fcs| - 1].additions + fcs[|fcs| - 1].deletions
  }

  function TotalNewLines(fcs: seq<FileChange>): nat
  {
    if fcs == [] then 0 else TotalNewLines(fcs[..|fcs| - 1]) + fcs[|fcs| - 1].newLines
  }

  function TotalDeletions(fcs: seq<FileChange>): int
  {
    if fcs == [] then 0 else TotalDeletions(fcs[..|fcs| - 1]) + fcs[|fcs| - 1].deletions
  }

  function TotalTestNewLines(fcs: seq<FileChange>): nat
  {
    if fcs == [] then 0
    else TotalTestNewLines(fcs[..|fcs| - 1]) + (if IsTest(fcs[|fcs| - 1].file) then fcs[|fcs| - 1].newLines else 0)
  }

  /** New lines in test files are a part of all new lines. */
  lemma {:induction false} TestNewLinesBound(fcs: seq<FileChange>)
    ensures TotalTestNewLines(fcs) <= TotalNewLines(fcs)
  {
    if fcs != [] {
      TestNewLinesBound(fcs[..|fcs| - 1]);
    }
  }

  /** Without a test file among the changes there are no test lines. */
  lemma {:induction false} NoTestFileNoTestLines(fcs: seq<FileChange>)
    requires forall i :: 0 <= i < |fcs| ==> !IsTest(fcs[i].file)
    ensures TotalTestNewLines(fcs) == 0
  {
    if fcs != [] {
      NoTestFileNoTestLines(fcs[..|fcs| - 1]);
    }
  }

  predicate NonNegativeCounts(fcs: seq<FileChange>)
  {
    forall i :: 0 <= i < |fcs| ==> fcs[i].additions >= 0 && fcs[i].deletions >= 0
  }

  /** For counts as git writes them, new lines never exceed changed lines. */
  lemma {:induction false} NewLinesWithinChanges(fcs: seq<FileChange>)
    requires NonNegativeCounts(fcs)
    requires forall i :: 0 <= i < |fcs| ==>
      fcs[i].newLines == if fcs[i].additions > fcs[i].deletions then fcs[i].additions - fcs[i].deletions else 0
    ensures TotalNewLines(fcs) <= TotalChanges(fcs)
  {
    if fcs != [] {
      NewLinesWithinChanges(fcs[..|fcs| - 1]);
    }
  }

  // ------------------------------------------------------- Commit, Author

  /** The per-author results that extract_statistics attaches to an Author. */
  datatype Metrics = Metrics(
    allNewLines: nat,
    allDeletedLines: int,
    commitsPerDay: real,
    filesPerCommit: real,
    linesPerCommit: real,
    commitsUnder25: real,
    commitsAbove500: real,
    testLineRatio: real,
    mergeCommits: nat)

  class Commit {
    const shortHash: string
    /** Author and commit times, in whole seconds since the epoch. */
    const authorTime: int
    const commitEmail: string
    const commitTime: int
    const branch: string
    var comment: string
    var fileChanges: seq<FileChange>

    /** `Commit(...)`: both times are read as numbers; a fresh commit has an
        empty comment and no file changes, so every count is 0. */
    constructor (shortHash: string, authorTime: string, commitEmail: string, commitTime: string, branch: string)
      requires ParseInt(authorTime).Some? && ParseInt(commitTime).Some?
      ensures this.shortHash == shortHash && this.commitEmail == commitEmail && this.branch == branch
      ensures this.authorTime == ParseInt(authorTime).value && this.commitTime == ParseInt(commitTime).value
      ensures comment == "" && fileChanges == []
      ensures TotalChanges(fileChanges) == 0 && TotalNewLines(fileChanges) == 0
      ensures TotalDeletions(fileChanges) == 0 && !IsMergeCommit()
    {
      this.shortHash := shortHash;
      this.authorTime := ParseInt(authorTime).value;
      this.commitEmail := commitEmail;
      this.commitTime := ParseInt(commitTime).value;
      this.branch := branch;
      comment := "";
      fileChanges := [];
    }

    method NumberOfChanges() returns (changes: int)
      ensures changes == TotalChanges(fileChanges)
    {
      changes := 0;
      var i := 0;
      while i < |fileChanges|
        invariant 0 <= i <= |fileChanges|
        invariant changes == TotalChanges(fileChanges[..i])
      {
        assert fileChanges[..i + 1][..i] == fileChanges[..i];
        changes := changes + fileChanges[i].additions + fileChanges[i].deletions;
        i := i + 1;
      }
      assert fileChanges[..i] == fileChanges;
    }

    method NumberOfNewLines() returns (newLines: int)
      ensures newLines == TotalNewLines(fileChanges)
    {
      newLines := 0;
      var i := 0;
      while i < |fileChanges|
        invariant 0 <= i <= |fileChanges|
        invariant newLines == TotalNewLines(fileChanges[..i])
      {
        assert fileChanges[..i + 1][..i] == fileChanges[..i];
        newLines := newLines + fileChanges[i].newLines;
        i := i + 1;
      }
      assert fileChanges[..i] == fileChanges;
    }

    method NumberOfDeletions() returns (deletions: int)
      ensures deletions == TotalDeletions(fileChanges)
    {
      deletions := 0;
      var i := 0;
      while i < |fileChanges|
        invariant 0 <= i <= |fileChanges|
        invariant deletions == TotalDeletions(fileChanges[..i])
      {
        assert fileChanges[..i + 1][..i] == fileChanges[..i];
        deletions := deletions + fileChanges[i].deletions;
        i := i + 1;
      }
      assert fileChanges[..i] == fileChanges;
    }

    method NumberOfTestNewLines() returns (newLines: int)
      ensures newLines == TotalTestNewLines(fileChanges)
      ensures 0 <= newLines <= TotalNewLines(fileChanges)
    {
      newLines := 0;
      var i := 0;
      while i < |fileChanges|
        invariant 0 <= i <= |fileChanges|
        invariant newLines == TotalTestNewLines(fileChanges[..i])
      {
        assert fileChanges[..i + 1][..i] == fileChanges[..i];
        if IsTest(fileChanges[i].file) {
          newLines := newLines + fileChanges[i].newLines;
        }
        i := i + 1;
      }
      assert fileChanges[..i] == fileChanges;
      TestNewLinesBound(fileChanges);
    }

    /** `is_merge_commit`: the comment contains "Merge branch" somewhere. */
    function IsMergeCommit(): (b: bool)
      reads this`comment
      ensures b <==> exists k :: OccursAt(comment, MergeMarker, k)
    {
      ContainsAt(comment, MergeMarker);
      Contains(comment, MergeMarker)
    }
  }

  /** Appending a comment line never turns a merge commit back into an ordinary one. */
  lemma MergeCommentStays(comment: string, line: string)
    requires Contains(comment, MergeMarker)
    ensures Contains(comment + line + " ", MergeMarker)
  {
    ContainsExtended(comment, MergeMarker, "", line + " ");
    assert "" + comment + (line + " ") == comment + line + " ";
  }

  class Author {
    /** The obfuscated email that identifies the author. */
    const email: string
    /** The author's commits in log order. */
    var commits: seq<Commit>
    /** The results of the latest extract_statistics run, once there is one. */
    var metrics: Option<Metrics>

    constructor (email: string)
      ensures this.email == email && commits == [] && metrics == None
    {
      this.email := email;
      commits := [];
      metrics := None;
    }
  }

  /** The commit list of each author, in order. */
  function CommitLists(authors: seq<Author>): (r: seq<seq<Commit>>)
    reads authors`commits
    ensures |r| == |authors| && forall i {:trigger r[i]} :: 0 <= i < |authors| ==> r[i] == authors[i].commits
  {
    CommitListsUpTo(authors, |authors|)
  }

  /** The first n entries of CommitLists, built by counting up rather than by
      slicing, so that appending to the list creates no slices. */
  function CommitListsUpTo(authors: seq<Author>, n: nat): (r: seq<seq<Commit>>)
    requires n <= |authors|
    reads authors`commits
    ensures |r| == n && forall i {:trigger r[i]} :: 0 <= i < n ==> r[i] == authors[i].commits
  {
    if n == 0 then [] else CommitListsUpTo(authors, n - 1) + [authors[n - 1].commits]
  }

  /** The comment of each commit, in order. */
  function Comments(commits: seq<Commit>): (r: seq<string>)
    reads commits`comment
    ensures |r| == |commits| && forall i {:trigger r[i]} :: 0 <= i < |commits| ==> r[i] == commits[i].comment
  {
    CommentsUpTo(commits, |commits|)
  }

  /** The first n entries of Comments, built by counting up rather than by
      slicing, so that appending to the list creates no slices. */
  function CommentsUpTo(commits: seq<Commit>, n: nat): (r: seq<string>)
    requires n <= |commits|
    reads commits`comment
    ensures |r| == n && forall i {:trigger r[i]} :: 0 <= i < n ==> r[i] == commits[i].comment
  {
    if n == 0 then [] else CommentsUpTo(commits, n - 1) + [commits[n - 1].comment]
  }

  /** The file-change list of each commit, in order. */
  function ChangeLists(commits: seq<Commit>): (r: seq<seq<FileChange>>)
    reads commits`fileChanges
    ensures |r| == |commits| && forall i {:trigger r[i]} :: 0 <= i < |commits| ==> r[i] == commits[i].fileChanges
  {
    ChangeListsUpTo(commits, |commits|)
  }

  /** The first n entries of ChangeLists, built by counting up rather than by
      slicing, so that appending to the list creates no slices. */
  function ChangeListsUpTo(commits: seq<Commit>, n: nat): (r: seq<seq<FileChange>>)
    requires n <= |commits|
    reads commits`fileChanges
    ensures |r| == n && forall i {:trigger r[i]} :: 0 <= i < n ==> r[i] == commits[i].fileChanges
  {
    if n == 0 then [] else ChangeListsUpTo(commits, n - 1) + [commits[n - 1].fileChanges]
  }

  /** Once c is appended to the commits of author k, and no other author's
      commits differ from `before`, CommitLists differs from `before` in entry k only. */
  lemma CommitListsAfterAppend(authors: seq<Author>, before: seq<seq<Commit>>, k: nat, c: Commit)
    requires |before| == |authors| && k < |authors|
    requires authors[k].commits == before[k] + [c]
    requires forall i :: 0 <= i < |authors| && i != k ==> authors[i].commits == before[i]
    ensures CommitLists(authors) == before[k := before[k] + [c]]
  {
  }

  /** Once the comment of commit k is extended by text, and no other comment
      differs from `before`, Comments differs from `before` in entry k only. */
  lemma CommentsAfterAppend(commits: seq<Commit>, before: seq<string>, k: nat, text: string)
    requires |before| == |commits| && k < |commits|
    requires commits[k].comment == before[k] + text
    requires forall i :: 0 <= i < |commits| && i != k ==> commits[i].comment == before[i]
    ensures Comments(commits) == before[k := before[k] + text]
  {
  }

  /** Once fc is appended to the changes of commit k, and no other commit's
      changes differ from `before`, ChangeLists differs from `before` in entry k only. */
  lemma ChangeListsAfterAppend(commits: seq<Commit>, before: seq<seq<FileChange>>, k: nat, fc: FileChange)
    requires |before| == |commits| && k < |commits|
    requires commits[k].fileChanges == before[k] + [fc]
    requires forall i :: 0 <= i < |commits| && i != k ==> commits[i].fileChanges == before[i]
    ensures ChangeLists(commits) == before[k := before[k] + [fc]]
  {
  }
}

=== FILE: parser.dfy ===
/** The line-driven log reader of parser.py. Two flags, summaryStart and
    commentStart, are switched by prefix tests on each line; every other line
    becomes a commit, a comment fragment or a file change, recorded in place
    in the author and file registries and the flat lists. */
module LogParser {
  import opened Wrappers
  import opened Text
  import opened Models

  // ------------------------------------------------------------- helpers

  /** `Helpers.scramble_function`: `email[:3] + email[-3:]`. */
  function Scramble(email: string): (r: string)
    ensures |r| == 2 * (if |email| < 3 then |email| else 3)
    ensures |email| >= 3 ==> r == email[..3] + email[|email| - 3..]
    ensures |email| < 3 ==> r == email + email
  {
    Slice(email, 0, 3) + Slice(email, -3, |email|)
  }

  lemma ScrambleExamples()
    ensures Scramble("a@b.com") == "a@bcom"
    ensures Scramble("ab") == "abab"
  {
    assert "a@b.com"[..3] == "a@b";
    assert "a@b.com"[4..] == "com";
  }

  /** `line[:5] == 'start'`. */
  function IsStart(line: string): (b: bool)
    ensures b <==> "start" <= line
  {
    assert |line| >= 5 ==> Slice(line, 0, 5) == line[..5];
    Slice(line, 0, 5) == "start"
  }

  /** `line[:3] == 'end'`. */
  function IsEnd(line: string): (b: bool)
    ensures b <==> "end" <= line
  {
    assert |line| >= 3 ==> Slice(line, 0, 3) == line[..3];
    Slice(line, 0, 3) == "end"
  }

  /** `line[:12] == 'startcomment'`. */
  function IsStartComment(line: string): (b: bool)
    ensures b <==> "startcomment" <= line
  {
    assert |line| >= 12 ==> Slice(line, 0, 12) == line[..12];
    Slice(line, 0, 12) == "startcomment"
  }

  /** Every "startcomment" marker also passes the "start" test. */
  lemma StartCommentIsStart(line: string)
    requires IsStartComment(line)
    ensures IsStart(line)
  {
    assert line[..5] == "startcomment"[..5];
  }

  // ------------------------------------------------------------ dispatch

  /** What process_line does with one line. */
  datatype Action =
    | Skip           // a line of length at most one
    | OpenSummary    // "start" outside a summary
    | OpenComment    // "startcomment" inside a summary
    | CloseComment   // "end" inside a comment
    | AppendComment  // comment text
    | AddCommit      // the summary line
    | AddFileChange  // a numstat line

  /** The branch order of process_line (parser.py:34-50). */
  function Classify(summaryStart: bool, commentStart: bool, line: string): (a: Action)
    ensures a == Skip <==> |line| <= 1
    ensures a == OpenSummary ==> !summaryStart && IsStart(line)
    ensures a == OpenComment ==> summaryStart && IsStartComment(line)
    ensures a == CloseComment ==> commentStart && IsEnd(line)
    ensures a == AppendComment ==> commentStart && !IsEnd(line)
    ensures a == AddCommit ==> summaryStart && !commentStart && !IsStartComment(line)
    ensures a == AddFileChange ==> !summaryStart && !commentStart && !IsStart(line)
  {
    if |line| <= 1 then Skip
    else if !summaryStart && IsStart(line) then OpenSummary
    else if summaryStart && IsStartComment(line) then OpenComment
    else if commentStart && IsEnd(line) then CloseComment
    else if commentStart then AppendComment
    else if summaryStart then AddCommit
    else AddFileChange
  }

  /** The flags after an action. */
  function NextFlags(summaryStart: bool, commentStart: bool, a: Action): (bool, bool)
  {
    match a
    case OpenSummary => (true, commentStart)
    case OpenComment => (false, true)
    case CloseComment => (summaryStart, false)
    case _ => (summaryStart, commentStart)
  }

  /** Outside a summary, "startcomment" only opens a summary, since it begins with "start". */
  lemma StartCommentOutsideSummary(commentStart: bool, line: string)
    requires IsStartComment(line)
    ensures Classify(false, commentStart, line) == OpenSummary
  {
    StartCommentIsStart(line);
  }

  /** Inside a comment, a line that begins with "start" is taken as a marker,
      not as comment text: it opens a summary. */
  lemma CommentLineStartingWithStart(line: string)
    requires IsStart(line)
    ensures Classify(false, true, line) == OpenSummary
  {
  }

  /** The flags after feeding a run of lines. */
  function FlagsAfter(summaryStart: bool, commentStart: bool, lines: seq<string>): (bool, bool)
    decreases |lines|
  {
    if lines == [] then (summaryStart, commentStart)
    else
      var flags := NextFlags(summaryStart, commentStart, Classify(summaryStart, commentStart, lines[0]));
      FlagsAfter(flags.0, flags.1, lines[1..])
  }

  /** How many lines of a run are taken as summary lines. */
  function SummaryLines(summaryStart: bool, commentStart: bool, lines: seq<string>): nat
    decreases |lines|
  {
    if lines == [] then 0
    else
      var a := Classify(summaryStart, commentStart, lines[0]);
      var flags := NextFlags(summaryStart, commentStart, a);
      (if a == AddCommit then 1 else 0) + SummaryLines(flags.0, flags.1, lines[1..])
  }

  // ---------------------------------------------------------- line forms

  /** The strings that map_parameters hands to the Commit constructor. */
  datatype CommitParameters = CommitParameters(
    shortHash: string, authorTime: string, commitEmail: string, commitTime: string, branch: string)

  /** A summary line the source can digest: six ';' fields at least, with
      numeric author and commit times. */
  predicate SummaryWellFormed(line: string)
  {
    var params := Split(line, ';');
    |params| >= 6 && ParseInt(params[2]).Some? && ParseInt(params[4]).Some?
  }

  /** A numstat line splits into exactly three tab-separated fields. */
  predicate FileChangeWellFormed(line: string)
  {
    |Split(line, '\t')| == 3
  }

  /** `map_parameters`: the commit's fields and the author's scrambled email. */
  function MapParameters(line: string): (CommitParameters, string)
    requires |Split(line, ';')| >= 6
  {
    var params := Split(line, ';')[..6];
    (CommitParameters(params[0], params[2], Scramble(params[3]), params[4], params[5]), Scramble(params[1]))
  }

  /** Field k of a summary line goes where the format says, and fields after the sixth are ignored. */
  lemma MapParametersOfFields(hash: string, authorEmail: string, authorTime: string,
                              commitEmail: string, commitTime: string, branch: string, extra: seq<string>)
    requires ';' !in hash && ';' !in authorEmail && ';' !in authorTime
    requires ';' !in commitEmail && ';' !in commitTime && ';' !in branch
    requires forall i :: 0 <= i < |extra| ==> ';' !in extra[i]
    ensures var fields := [hash, authorEmail, authorTime, commitEmail, commitTime, branch] + extra;
      var line := Join(fields, ';');
      Split(line, ';') == fields &&
      MapParameters(line) ==
        (CommitParameters(hash, authorTime, Scramble(commitEmail), commitTime, branch), Scramble(authorEmail))
  {
    var fields := [hash, authorEmail, authorTime, commitEmail, commitTime, branch] + extra;
    assert forall i :: 6 <= i < |fields| ==> fields[i] == extra[i - 6];
    SplitJoin(fields, ';');
    assert fields[..6] == [hash, authorEmail, authorTime, commitEmail, commitTime, branch];
  }

  /** The consequence of such a line: once the comment's "end" is read, the
      summary is still open, so a numstat line that follows is taken as a
      summary line, and having no ';' fields it is not one map_parameters
      can digest (the source raises there). */
  lemma StrayStartThenNumstat(line: string, change: string)
    requires IsStart(line)
    requires |change| > 1 && !IsStart(change) && ';' !in change
    ensures FlagsAfter(false, true, [line, "end\n"]) == (true, false)
    ensures Classify(true, false, change) == AddCommit
    ensures !SummaryWellFormed(change)
  {
    assert [line, "end\n"][1..] == ["end\n"];
    assert ["end\n"][1..] == [];
    SplitNoSeparator(change, ';');
    if IsStartComment(change) {
      StartCommentIsStart(change);
    }
  }

  /** What the source needs of a line so that it does not raise: the summary
      and numstat shapes, and a commit to attach a comment or an accepted file
      change to. */
  predicate Admissible(a: Action, hasCommit: bool, line: string)
  {
    match a
    case AddCommit => SummaryWellFormed(line)
    case AppendComment => hasCommit
    case AddFileChange => FileChangeWellFormed(line) && (hasCommit || NewFile(Split(line, '\t')[2]).Failure?)
    case _ => true
  }

  /** A run of lines every one of which is admissible in the state it meets. */
  predicate Feedable(summaryStart: bool, commentStart: bool, hasCommit: bool, lines: seq<string>)
    decreases |lines|
  {
    lines == [] ||
      var a := Classify(summaryStart, commentStart, lines[0]);
      var flags := NextFlags(summaryStart, commentStart, a);
      Admissible(a, hasCommit, lines[0]) && Feedable(flags.0, flags.1, hasCommit || a == AddCommit, lines[1..])
  }

  /** Comment text, read inside a comment, leaves the flags alone. */
  lemma {:induction false} CommentRun(comments: seq<string>)
    requires forall i :: 0 <= i < |comments| ==> |comments[i]| > 1 && !IsStart(comments[i]) && !IsEnd(comments[i])
    ensures FlagsAfter(false, true, comments) == (false, true)
    ensures SummaryLines(false, true, comments) == 0
  {
    if comments != [] {
      CommentRun(comments[1..]);
    }
  }

  /** Numstat lines, read outside any block, leave the flags alone. */
  lemma {:induction false} ChangeRun(changes: seq<string>)
    requires forall i :: 0 <= i < |changes| ==> |changes[i]| > 1 && !IsStart(changes[i])
    ensures FlagsAfter(false, false, changes) == (false, false)
    ensures SummaryLines(false, false, changes) == 0
  {
    if changes != [] {
      ChangeRun(changes[1..]);
    }
  }

  /** The comment lines, the end marker and the numstat lines of a record
      bring the machine from inside a comment back to its initial flags and
      yield no summary line. */
  lemma CommentBlock(comments: seq<string>, changes: seq<string>)
    requires forall i :: 0 <= i < |comments| ==> |comments[i]| > 1 && !IsStart(comments[i]) && !IsEnd(comments[i])
    requires forall i :: 0 <= i < |changes| ==> |changes[i]| > 1 && !IsStart(changes[i])
    ensures FlagsAfter(false, true, comments + ["end\n"] + changes) == (false, false)
    ensures SummaryLines(false, true, comments + ["end\n"] + changes) == 0
  {
    var tail := ["end\n"] + changes;
    assert comments + ["end\n"] + changes == comments + tail;
    assert tail[1..] == changes;
    assert Classify(false, true, "end\n") == CloseComment by { assert "end\n"[..3] == "end"; }
    ChangeRun(changes);
    CommentsThenTail(comments, tail);
    assert FlagsAfter(false, true, tail) == (false, false);
    assert SummaryLines(false, true, tail) == 0;
  }

  /** Feeding a line in front of a run: the line's action sets the flags the
      run starts from, and counts once if it is a summary line. */
  lemma FeedOne(summaryStart: bool, commentStart: bool, line: string, rest: seq<string>)
    ensures var a := Classify(summaryStart, commentStart, line);
      var f := NextFlags(summaryStart, commentStart, a);
      && FlagsAfter(summaryStart, commentStart, [line] + rest) == FlagsAfter(f.0, f.1, rest)
      && SummaryLines(summaryStart, commentStart, [line] + rest) == (if a == AddCommit then 1 else 0) + SummaryLines(f.0, f.1, rest)
  {
    assert ([line] + rest)[1..] == rest;
  }

  /** One record of the log format brings the machine back to its initial
      flags and yields exactly one summary line. */
  lemma RecordBlock(summary: string, comments: seq<string>, changes: seq<string>)
    requires |summary| > 1 && !IsStartComment(summary)
    requires forall i :: 0 <= i < |comments| ==> |comments[i]| > 1 && !IsStart(comments[i]) && !IsEnd(comments[i])
    requires forall i :: 0 <= i < |changes| ==> |changes[i]| > 1 && !IsStart(changes[i])
    ensures var lines := ["start\n", summary, "startcomment\n"] + comments + ["end\n"] + changes;
      FlagsAfter(false, false, lines) == (false, false) && SummaryLines(false, false, lines) == 1
  {
    var inComment := comments + ["end\n"] + changes;
    assert ["start\n", summary, "startcomment\n"] + comments + ["end\n"] + changes
        == ["start\n"] + ([summary] + (["startcomment\n"] + inComment));
    assert Classify(false, false, "start\n") == OpenSummary by { assert "start\n"[..5] == "start"; }
    assert Classify(true, false, summary) == AddCommit;
    assert Classify(true, false, "startcomment\n") == OpenComment by { assert "startcomment\n"[..12] == "startcomment"; }
    FeedOne(false, false, "start\n", [summary] + (["startcomment\n"] + inComment));
    FeedOne(true, false, summary, ["startcomment\n"] + inComment);
    FeedOne(true, false, "startcomment\n", inComment);
    CommentBlock(comments, changes);
  }

  /** Comment text in front of a run changes neither the flags nor the count after it. */
  lemma {:induction false} CommentsThenTail(comments: seq<string>, tail: seq<string>)
    requires forall i :: 0 <= i < |comments| ==> |comments[i]| > 1 && !IsStart(comments[i]) && !IsEnd(comments[i])
    ensures FlagsAfter(false, true, comments + tail) == FlagsAfter(false, true, tail)
    ensures SummaryLines(false, true, comments + tail) == SummaryLines(false, true, tail)
  {
    if comments != [] {
      var rest := comments[1..] + tail;
      assert (comments + tail)[0] == comments[0] && (comments + tail)[1..] == rest;
      assert Classify(false, true, comments[0]) == AppendComment;
      assert FlagsAfter(false, true, comments + tail) == FlagsAfter(false, true, rest);
      assert SummaryLines(false, true, comments + tail) == SummaryLines(false, true, rest);
      CommentsThenTail(comments[1..], tail);
    } else {
      assert comments + tail == tail;
    }
  }

  // ----------------------------------------------------------- registries

  /** The author registry as the parser fills it: keyed by email, later entries win. */
  function AuthorIndex(authors: seq<Author>): (index: map<string, Author>)
    ensures forall i :: 0 <= i < |authors| ==> authors[i].email in index
    ensures forall e :: e in index ==> index[e].email == e
  {
    AuthorIndexUpTo(authors, |authors|)
  }

  /** The registry after the first n authors. (Counting up rather than slicing
      keeps the unfoldings of an appended list free of slices.) */
  function AuthorIndexUpTo(authors: seq<Author>, n: nat): (index: map<string, Author>)
    requires n <= |authors|
    ensures forall i :: 0 <= i < n ==> authors[i].email in index
    ensures forall e :: e in index ==> index[e].email == e
  {
    if n == 0 then map[]
    else AuthorIndexUpTo(authors, n - 1)[authors[n - 1].email := authors[n - 1]]
  }

  /** Appending authors leaves the registry of the first n alone. */
  lemma {:induction false} AuthorIndexUpToAppend(authors: seq<Author>, more: seq<Author>, n: nat)
    requires n <= |authors|
    ensures AuthorIndexUpTo(authors + more, n) == AuthorIndexUpTo(authors, n)
  {
    if n > 0 {
      AuthorIndexUpToAppend(authors, more, n - 1);
    }
  }

  /** The file registry: keyed by path. */
  function FileIndex(files: seq<File>): (index: map<string, File>)
    ensures forall i :: 0 <= i < |files| ==> files[i].path in index
    ensures forall p :: p in index ==> index[p].path == p
  {
    FileIndexUpTo(files, |files|)
  }

  /** The file registry after the first n files. */
  function FileIndexUpTo(files: seq<File>, n: nat): (index: map<string, File>)
    requires n <= |files|
    ensures forall i :: 0 <= i < n ==> files[i].path in index
    ensures forall p :: p in index ==> index[p].path == p
  {
    if n == 0 then map[]
    else FileIndexUpTo(files, n - 1)[files[n - 1].path := files[n - 1]]
  }

  /** Appending files leaves the registry of the first n alone. */
  lemma {:induction false} FileIndexUpToAppend(files: seq<File>, more: seq<File>, n: nat)
    requires n <= |files|
    ensures FileIndexUpTo(files + more, n) == FileIndexUpTo(files, n)
  {
    if n > 0 {
      FileIndexUpToAppend(files, more, n - 1);
    }
  }

  /** Where the registry's entry for an email sits in the author list. */
  function Position(authors: seq<Author>, email: string): (k: nat)
    requires email in AuthorIndex(authors)
    ensures k < |authors| && authors[k] == AuthorIndex(authors)[email]
  {
    PositionUpTo(authors, email, |authors|)
  }

  /** Where the entry for an email sits among the first n authors. */
  function PositionUpTo(authors: seq<Author>, email: string, n: nat): (k: nat)
    requires n <= |authors| && email in AuthorIndexUpTo(authors, n)
    ensures k < n && authors[k] == AuthorIndexUpTo(authors, n)[email]
  {
    if authors[n - 1].email == email then n - 1
    else PositionUpTo(authors, email, n - 1)
  }

  predicate DistinctEmails(authors: seq<Author>)
  {
    forall i, j :: 0 <= i < j < |authors| ==> authors[i].email != authors[j].email
  }

  predicate DistinctPaths(files: seq<File>)
  {
    forall i, j :: 0 <= i < j < |files| ==> files[i].path != files[j].path
  }

  predicate DistinctCommits(commits: seq<Commit>)
  {
    forall i, j :: 0 <= i < j < |commits| ==> commits[i] != commits[j]
  }

  /** With distinct emails the registry holds exactly one entry per author,
      and each author is found under its own email. */
  lemma AuthorIndexSize(authors: seq<Author>)
    requires DistinctEmails(authors)
    ensures |AuthorIndex(authors)| == |authors|
    ensures forall i :: 0 <= i < |authors| ==> AuthorIndex(authors)[authors[i].email] == authors[i]
  {
    AuthorIndexSizeUpTo(authors, |authors|);
  }

  lemma {:induction false} AuthorIndexSizeUpTo(authors: seq<Author>, n: nat)
    requires n <= |authors| && DistinctEmails(authors)
    ensures |AuthorIndexUpTo(authors, n)| == n
    ensures forall i :: 0 <= i < n ==> AuthorIndexUpTo(authors, n)[authors[i].email] == authors[i]
  {
    if n > 0 {
      AuthorIndexSizeUpTo(authors, n - 1);
      if authors[n - 1].email in AuthorIndexUpTo(authors, n - 1) {
        var k := PositionUpTo(authors, authors[n - 1].email, n - 1);
        assert false;
      }
    }
  }

  /** Distinct emails make distinct author objects. */
  lemma DistinctAuthorObjects(authors: seq<Author>)
    requires DistinctEmails(authors)
    ensures forall i, j :: 0 <= i < |authors| && 0 <= j < |authors| && i != j ==> authors[i] != authors[j]
  {
  }

  function Last<T>(s: seq<T>): T
    requires s != []
  {
    s[|s| - 1]
  }

  // -------------------------------------------------------------- records

  /** The parser's records as values: its lists and registries, together with
      each author's commit list, each commit's comment and each commit's file
      changes as they stand in the objects. */
  datatype Records = Records(
    authorList: seq<Author>,
    authorDict: map<string, Author>,
    currentAuthor: Author?,
    commitList: seq<Commit>,
    fileList: seq<File>,
    fileDict: map<string, File>,
    fileChangeList: seq<FileChange>,
    authorCommits: seq<seq<Commit>>,
    comments: seq<string>,
    commitChanges: seq<seq<FileChange>>)

  /** The records of a parser that has read nothing. */
  function NoRecords(): Records
  {
    Records([], map[], null, [], [], map[], [], [], [], [])
  }

  /** The file is the one registered under its path. */
  predicate Registered(fileDict: map<string, File>, f: File)
  {
    f.path in fileDict && fileDict[f.path] == f
  }

  /** One author object per distinct email; the registry and the list agree. */
  predicate AuthorRegistry(authors: seq<Author>, authorDict: map<string, Author>)
  {
    DistinctEmails(authors) && authorDict == AuthorIndex(authors)
  }

  /** One File per distinct path, each accepted; the registry and the list agree. */
  predicate FileRegistry(files: seq<File>, fileDict: map<string, File>)
  {
    && DistinctPaths(files)
    && fileDict == FileIndex(files)
    && forall p :: p in fileDict ==> NewFile(p) == Success(fileDict[p])
  }

  /** Every recorded change, in the flat list and in the commits, uses a
      registered File, and the commits hold as many changes as the flat list. */
  predicate ChangesRegistered(fileDict: map<string, File>, flat: seq<FileChange>, perCommit: seq<seq<FileChange>>)
  {
    && (forall i :: 0 <= i < |flat| ==> Registered(fileDict, flat[i].file))
    && (forall i, j :: 0 <= i < |perCommit| && 0 <= j < |perCommit[i]| ==> Registered(fileDict, perCommit[i][j].file))
    && Sum(Lengths(perCommit)) == |flat|
  }

  /** Distinct commit objects; every author holds at least one, only listed
      ones, and together as many as the list has. */
  predicate CommitsHeld(commits: seq<Commit>, held: seq<seq<Commit>>)
  {
    && DistinctCommits(commits)
    && (forall i :: 0 <= i < |held| ==> |held[i]| > 0)
    && (forall i, j :: 0 <= i < |held| && 0 <= j < |held[i]| ==> held[i][j] in commits)
    && Sum(Lengths(held)) == |commits|
  }

  /** The correspondences between the registries and the lists. */
  predicate Registries(r: Records)
  {
    && AuthorRegistry(r.authorList, r.authorDict)
    && |r.authorCommits| == |r.authorList|
    && FileRegistry(r.fileList, r.fileDict)
    && |r.comments| == |r.commitList|
    && |r.commitChanges| == |r.commitList|
    && ChangesRegistered(r.fileDict, r.fileChangeList, r.commitChanges)
    && CommitsHeld(r.commitList, r.authorCommits)
  }

  /** The registries agree, and the current author is the registered author
      of the latest commit (there is one exactly when a commit was read). */
  predicate Consistent(r: Records)
  {
    && Registries(r)
    && (r.currentAuthor == null <==> r.commitList == [])
    && (r.currentAuthor != null ==>
          && r.currentAuthor.email in r.authorDict
          && r.authorDict[r.currentAuthor.email] == r.currentAuthor
          && Last(r.authorCommits[Position(r.authorList, r.currentAuthor.email)]) == Last(r.commitList))
  }

  /** Registering an author under an unseen email. */
  lemma AuthorRegistryAdd(authors: seq<Author>, authorDict: map<string, Author>, a: Author)
    requires AuthorRegistry(authors, authorDict) && a.email !in authorDict
    ensures AuthorRegistry(authors + [a], authorDict[a.email := a])
    ensures Position(authors + [a], a.email) == |authors|
  {
    var m := |authors|;
    AuthorIndexUpToAppend(authors, [a], m);
    assert forall i :: 0 <= i < m ==> authors[i].email != a.email;
  }

  /** Registering a File under an unseen path. */
  lemma FileRegistryAdd(files: seq<File>, fileDict: map<string, File>, f: File)
    requires FileRegistry(files, fileDict) && f.path !in fileDict && NewFile(f.path) == Success(f)
    ensures FileRegistry(files + [f], fileDict[f.path := f])
  {
    FileIndexAdd(files, f);
    DistinctPathsAdd(files, f);
  }

  /** Registering one more File updates the registry at its path. */
  lemma FileIndexAdd(files: seq<File>, f: File)
    ensures FileIndex(files + [f]) == FileIndex(files)[f.path := f]
  {
    FileIndexUpToAppend(files, [f], |files|);
  }

  /** A File whose path is not registered keeps the paths distinct. */
  lemma DistinctPathsAdd(files: seq<File>, f: File)
    requires DistinctPaths(files) && f.path !in FileIndex(files)
    ensures DistinctPaths(files + [f])
  {
    assert forall i :: 0 <= i < |files| ==> files[i].path in FileIndex(files);
  }

  /** A registered path names an accepted File. */
  lemma RegisteredIsAccepted(files: seq<File>, fileDict: map<string, File>, path: string)
    requires FileRegistry(files, fileDict) && path in fileDict
    ensures NewFile(path) == Success(fileDict[path])
  {
  }

  /** A path File(path) rejects was never registered. */
  lemma RejectedIsUnregistered(files: seq<File>, fileDict: map<string, File>, path: string)
    requires FileRegistry(files, fileDict)
    ensures NewFile(path).Failure? ==> path !in fileDict
  {
    if path in fileDict {
      RegisteredIsAccepted(files, fileDict, path);
    }
  }

  /** Registering a File under its own path keeps registered changes registered. */
  lemma ChangesAfterRegistering(fileDict: map<string, File>, flat: seq<FileChange>,
                                perCommit: seq<seq<FileChange>>, f: File)
    requires ChangesRegistered(fileDict, flat, perCommit)
    requires f.path in fileDict ==> fileDict[f.path] == f
    ensures ChangesRegistered(fileDict[f.path := f], flat, perCommit)
  {
  }

  /** Recording a change with a registered File in the flat list and in commit n. */
  lemma ChangesAfterRecording(fileDict: map<string, File>, flat: seq<FileChange>,
                              perCommit: seq<seq<FileChange>>, n: nat, fc: FileChange)
    requires ChangesRegistered(fileDict, flat, perCommit)
    requires n < |perCommit| && Registered(fileDict, fc.file)
    ensures ChangesRegistered(fileDict, flat + [fc], perCommit[n := perCommit[n] + [fc]])
  {
    assert Lengths(perCommit[n := perCommit[n] + [fc]]) == Lengths(perCommit)[n := Lengths(perCommit)[n] + 1];
    SumBump(Lengths(perCommit), n);
  }

  /** A new commit arrives with no changes. */
  lemma ChangesAfterNewCommit(fileDict: map<string, File>, flat: seq<FileChange>, perCommit: seq<seq<FileChange>>)
    requires ChangesRegistered(fileDict, flat, perCommit)
    ensures ChangesRegistered(fileDict, flat, perCommit + [[]])
  {
    assert Lengths(perCommit + [[]]) == Lengths(perCommit) + [0];
    SumAppend(Lengths(perCommit), 0);
  }

  /** A new commit filed under the existing author k. */
  lemma CommitsHeldByKnown(commits: seq<Commit>, held: seq<seq<Commit>>, k: nat, c: Commit)
    requires CommitsHeld(commits, held) && c !in commits && k < |held|
    ensures CommitsHeld(commits + [c], held[k := held[k] + [c]])
  {
    assert Lengths(held[k := held[k] + [c]]) == Lengths(held)[k := Lengths(held)[k] + 1];
    SumBump(Lengths(held), k);
  }

  /** A new commit filed under a new author. */
  lemma CommitsHeldByNew(commits: seq<Commit>, held: seq<seq<Commit>>, c: Commit)
    requires CommitsHeld(commits, held) && c !in commits
    ensures CommitsHeld(commits + [c], held + [[c]])
  {
    assert Lengths(held + [[c]]) == Lengths(held) + [1];
    SumAppend(Lengths(held), 1);
  }

  /** `init_comment` on the records: the latest commit's comment grows by the line and one space. */
  function WithComment(r: Records, line: string): Records
    requires r.commitList != [] && |r.comments| == |r.commitList|
  {
    var n := |r.commitList| - 1;
    r.(comments := r.comments[n := r.comments[n] + line + " "])
  }

  /** A comment line keeps the records consistent, and a merge commit stays one. */
  lemma CommentKeepsConsistent(r: Records, line: string)
    requires Consistent(r) && r.commitList != []
    ensures Consistent(WithComment(r, line))
    ensures Contains(Last(r.comments), MergeMarker) ==> Contains(Last(WithComment(r, line).comments), MergeMarker)
  {
    if Contains(Last(r.comments), MergeMarker) {
      MergeCommentStays(Last(r.comments), line);
    }
  }

  /** `init_commit_from_summary` on the records: the commit c joins the commit
      list with an empty comment and no changes, and joins the commits of the
      author registered under the scrambled email, which is the new author a
      when the email is unseen; that author becomes the current one. */
  function WithCommit(r: Records, email: string, c: Commit, a: Author): Records
    requires r.authorDict == AuthorIndex(r.authorList) && |r.authorCommits| == |r.authorList|
  {
    var added := r.(commitList := r.commitList + [c], comments := r.comments + [""],
                    commitChanges := r.commitChanges + [[]]);
    if email in r.authorDict then
      var k := Position(r.authorList, email);
      added.(authorCommits := r.authorCommits[k := r.authorCommits[k] + [c]],
             currentAuthor := r.authorDict[email])
    else
      added.(authorList := r.authorList + [a], authorDict := r.authorDict[email := a],
             authorCommits := r.authorCommits + [[c]], currentAuthor := a)
  }

  /** init_commit_from_summary step by step: list the commit, register the
      author when the email is unseen, make the author at position k current
      and give it the commit. */
  lemma WithCommitSteps(r: Records, email: string, c: Commit, a: Author, k: nat)
    requires r.authorDict == AuthorIndex(r.authorList) && |r.authorCommits| == |r.authorList|
    requires email in r.authorDict ==> k == Position(r.authorList, email)
    requires email !in r.authorDict ==> k == |r.authorList| && a.email == email
    ensures var r1 := r.(commitList := r.commitList + [c], comments := r.comments + [""],
                         commitChanges := r.commitChanges + [[]]);
      var r2 := if email in r.authorDict then r1
                else r1.(authorList := r.authorList + [a], authorDict := r.authorDict[email := a],
                         authorCommits := r.authorCommits + [[]]);
      var r3 := r2.(currentAuthor := r2.authorDict[email]);
      k < |r3.authorCommits| &&
      WithCommit(r, email, c, a) == r3.(authorCommits := r3.authorCommits[k := r3.authorCommits[k] + [c]])
  {
    if email !in r.authorDict {
      var held := r.authorCommits + [[]];
      assert held[k] + [c] == [c];
      assert forall i :: 0 <= i < |held| ==> held[k := [c]][i] == (r.authorCommits + [[c]])[i];
    }
  }

  /** A summary line keeps the records consistent; an author is created only
      for an unseen email, and the new commit is filed last under its author's email. */
  lemma CommitKeepsConsistent(r: Records, email: string, c: Commit, a: Author)
    requires Consistent(r)
    requires c !in r.commitList
    requires email !in r.authorDict ==> a.email == email
    ensures var r' := WithCommit(r, email, c, a);
      && Consistent(r')
      && |r'.commitList| == |r.commitList| + 1
      && |r'.authorList| == |r.authorList| + (if email in r.authorDict then 0 else 1)
      && r'.currentAuthor != null && r'.currentAuthor.email == email
      && Last(r'.authorCommits[Position(r'.authorList, email)]) == c
  {
    ChangesAfterNewCommit(r.fileDict, r.fileChangeList, r.commitChanges);
    if email in r.authorDict {
      CommitByKnownAuthor(r, email, c, a);
    } else {
      CommitByNewAuthor(r, email, c, a);
    }
  }

  /** The commit of an author already registered. */
  lemma CommitByKnownAuthor(r: Records, email: string, c: Commit, a: Author)
    requires Consistent(r) && c !in r.commitList && email in r.authorDict
    requires ChangesRegistered(r.fileDict, r.fileChangeList, r.commitChanges + [[]])
    ensures var r' := WithCommit(r, email, c, a);
      && Consistent(r')
      && r'.authorList == r.authorList && r'.currentAuthor == r.authorDict[email]
      && Last(r'.authorCommits[Position(r'.authorList, email)]) == c
  {
    var k := Position(r.authorList, email);
    CommitsHeldByKnown(r.commitList, r.authorCommits, k, c);
  }

  /** The commit of an unseen email, whose new author a is registered. */
  lemma CommitByNewAuthor(r: Records, email: string, c: Commit, a: Author)
    requires Consistent(r) && c !in r.commitList && email !in r.authorDict && a.email == email
    requires ChangesRegistered(r.fileDict, r.fileChangeList, r.commitChanges + [[]])
    ensures var r' := WithCommit(r, email, c, a);
      && Consistent(r')
      && r'.authorList == r.authorList + [a] && r'.currentAuthor == a
      && Last(r'.authorCommits[Position(r'.authorList, email)]) == c
  {
    AuthorRegistryAdd(r.authorList, r.authorDict, a);
    CommitsHeldByNew(r.commitList, r.authorCommits, c);
  }

  /** `init_file_change` on the records. A path neither registered nor accepted
      changes nothing; otherwise the path's File is reused or registered once,
      and the change is recorded in the flat list and in the latest commit.
      Before the first commit only a rejected path can come (a registered path
      is an accepted one), so then nothing changes either. */
  function WithFileChange(r: Records, path: string, additions: string, deletions: string): Records
    requires |r.commitChanges| == |r.commitList|
    requires r.commitList != [] || NewFile(path).Failure?
  {
    if r.commitList == [] || (path !in r.fileDict && NewFile(path).Failure?) then r
    else
      var file := if path in r.fileDict then r.fileDict[path] else NewFile(path).value;
      var fc := MakeFileChange(file, additions, deletions);
      var n := |r.commitList| - 1;
      r.(fileDict := r.fileDict[path := file],
         fileList := if path in r.fileDict then r.fileList else r.fileList + [file],
         fileChangeList := r.fileChangeList + [fc],
         commitChanges := r.commitChanges[n := r.commitChanges[n] + [fc]])
  }

  /** The effect of an accepted or registered path, spelled out. */
  lemma WithFileChangeRecords(r: Records, path: string, additions: string, deletions: string, file: File)
    requires |r.commitChanges| == |r.commitList| && r.commitList != []
    requires if path in r.fileDict then file == r.fileDict[path] else NewFile(path) == Success(file)
    ensures WithFileChange(r, path, additions, deletions)
         == r.(fileDict := r.fileDict[path := file],
               fileList := if path in r.fileDict then r.fileList else r.fileList + [file],
               fileChangeList := r.fileChangeList + [MakeFileChange(file, additions, deletions)],
               commitChanges := r.commitChanges[|r.commitList| - 1 := r.commitChanges[|r.commitList| - 1] + [MakeFileChange(file, additions, deletions)]])
  {
  }

  /** A numstat line keeps the records consistent. */
  lemma FileChangeKeepsConsistent(r: Records, path: string, additions: string, deletions: string)
    requires Consistent(r)
    requires r.commitList != [] || NewFile(path).Failure?
    ensures Consistent(WithFileChange(r, path, additions, deletions))
  {
    if path in r.fileDict || NewFile(path).Success? {
      var file := if path in r.fileDict then r.fileDict[path] else NewFile(path).value;
      FileChangeConsistent(r, file, MakeFileChange(file, additions, deletions));
      WithFileChangeRecords(r, path, additions, deletions, file);
    }
  }

  /** Recording a change of a File that is registered, or accepted and
      registered now, keeps the records consistent. */
  lemma FileChangeConsistent(r: Records, file: File, fc: FileChange)
    requires Consistent(r) && r.commitList != [] && fc.file == file
    requires if file.path in r.fileDict then r.fileDict[file.path] == file else NewFile(file.path) == Success(file)
    ensures Consistent(r.(fileDict := r.fileDict[file.path := file],
                          fileList := if file.path in r.fileDict then r.fileList else r.fileList + [file],
                          fileChangeList := r.fileChangeList + [fc],
                          commitChanges := r.commitChanges[|r.commitList| - 1 := r.commitChanges[|r.commitList| - 1] + [fc]]))
  {
    var n := |r.commitList| - 1;
    var dict := r.fileDict[file.path := file];
    var list := if file.path in r.fileDict then r.fileList else r.fileList + [file];
    if file.path !in r.fileDict {
      FileRegistryAdd(r.fileList, r.fileDict, file);
    }
    assert FileRegistry(list, dict);
    ChangesAfterRegistering(r.fileDict, r.fileChangeList, r.commitChanges, file);
    ChangesAfterRecording(dict, r.fileChangeList, r.commitChanges, n, fc);
    var r' := r.(fileDict := dict, fileList := list, fileChangeList := r.fileChangeList + [fc],
                 commitChanges := r.commitChanges[n := r.commitChanges[n] + [fc]]);
    FileRecordsConsistent(r, r');
  }

  /** Records that differ only in their files and file changes stay
      consistent when the file registry and the recorded changes do. */
  lemma FileRecordsConsistent(r: Records, r': Records)
    requires Consistent(r)
    requires r'.authorList == r.authorList && r'.authorDict == r.authorDict && r'.currentAuthor == r.currentAuthor
    requires r'.commitList == r.commitList && r'.authorCommits == r.authorCommits && r'.comments == r.comments
    requires |r'.commitChanges| == |r.commitChanges|
    requires FileRegistry(r'.fileList, r'.fileDict) && ChangesRegistered(r'.fileDict, r'.fileChangeList, r'.commitChanges)
    ensures Consistent(r')
  {
  }

  /** What process_line does to the records: r' is what the line's action
      makes of r. A summary line adds a commit object not listed before, and
      an unseen email adds an author with that email. */
  predicate Step(r: Records, summaryStart: bool, commentStart: bool, line: string, r': Records)
    requires Registries(r)
  {
    match Classify(summaryStart, commentStart, line)
    case AppendComment =>
      r.commitList != [] && r' == WithComment(r, line)
    case AddCommit =>
      && SummaryWellFormed(line)
      && var email := MapParameters(line).1;
      && r'.commitList != [] && r'.authorList != []
      && Last(r'.commitList) !in r.commitList
      && CommitMatches(Last(r'.commitList), MapParameters(line).0)
      && (email !in r.authorDict ==> Last(r'.authorList).email == email)
      && r' == WithCommit(r, email, Last(r'.commitList), Last(r'.authorList))
    case AddFileChange =>
      && FileChangeWellFormed(line)
      && (r.commitList != [] || NewFile(Split(line, '\t')[2]).Failure?)
      && r' == WithFileChange(r, Split(line, '\t')[2], Split(line, '\t')[0], Split(line, '\t')[1])
    case _ =>
      r' == r
  }

  /** Every step keeps the records consistent, and only a summary line adds a commit. */
  lemma StepKeepsConsistent(r: Records, summaryStart: bool, commentStart: bool, line: string, r': Records)
    requires Consistent(r) && Step(r, summaryStart, commentStart, line, r')
    ensures Consistent(r')
    ensures |r'.commitList| == |r.commitList| + (if Classify(summaryStart, commentStart, line) == AddCommit then 1 else 0)
  {
    match Classify(summaryStart, commentStart, line)
    case AppendComment =>
      CommentKeepsConsistent(r, line);
    case AddCommit =>
      CommitKeepsConsistent(r, MapParameters(line).1, Last(r'.commitList), Last(r'.authorList));
    case AddFileChange =>
      var parts := Split(line, '\t');
      FileChangeKeepsConsistent(r, parts[2], parts[0], parts[1]);
    case _ =>
  }

  /** The flags after a run of lines and one more line. */
  lemma {:induction false} FlagsAfterAppend(summaryStart: bool, commentStart: bool, lines: seq<string>, line: string)
    ensures var f := FlagsAfter(summaryStart, commentStart, lines);
      FlagsAfter(summaryStart, commentStart, lines + [line]) == NextFlags(f.0, f.1, Classify(f.0, f.1, line))
    decreases |lines|
  {
    if lines != [] {
      var flags := NextFlags(summaryStart, commentStart, Classify(summaryStart, commentStart, lines[0]));
      FlagsAfterAppend(flags.0, flags.1, lines[1..], line);
      assert (lines + [line])[1..] == lines[1..] + [line];
    } else {
      assert (lines + [line])[1..] == [];
    }
  }

  /** The registries of r agree and the line, read under the flags, takes r
      to r': StepTaken(r, s, c, line, r') holds exactly when
      Registries(r) && Step(r, s, c, line, r') (the quantifier over x == r is
      that equation, kept folded). */
  predicate StepTaken(r: Records, summaryStart: bool, commentStart: bool, line: string, r': Records)
  {
    forall x {:trigger Step(x, summaryStart, commentStart, line, r')} :: x == r ==> Registries(x) && Step(x, summaryStart, commentStart, line, r')
  }

  /** The records a run of lines passes through: rs[0] before the first line,
      and rs[i + 1] what process_line makes of rs[i] with line i, under the
      flags the lines before it left. */
  predicate Run(rs: seq<Records>, summaryStart: bool, commentStart: bool, lines: seq<string>)
    decreases |lines|
  {
    && |rs| == |lines| + 1
    && (lines != [] ==>
          var flags := FlagsAfter(summaryStart, commentStart, lines[..|lines| - 1]);
          && Run(rs[..|lines|], summaryStart, commentStart, lines[..|lines| - 1])
          && StepTaken(rs[|lines| - 1], flags.0, flags.1, lines[|lines| - 1], rs[|lines|]))
  }

  lemma PrefixAppend<T>(s: seq<T>, i: nat)
    requires i < |s|
    ensures s[..i + 1] == s[..i] + [s[i]] && s[..i + 1][..i] == s[..i]
  {
  }

  /** A run over the first i lines, followed by the step of line i, is a run
      over the first i + 1 lines. */
  lemma RunExtend(rs: seq<Records>, summaryStart: bool, commentStart: bool, lines: seq<string>, i: nat, r': Records)
    requires i < |lines| && Run(rs, summaryStart, commentStart, lines[..i])
    requires var flags := FlagsAfter(summaryStart, commentStart, lines[..i]);
      StepTaken(rs[i], flags.0, flags.1, lines[i], r')
    ensures Run(rs + [r'], summaryStart, commentStart, lines[..i + 1])
    ensures (rs + [r'])[0] == rs[0]
    ensures FlagsAfter(summaryStart, commentStart, lines[..i + 1])
         == var f := FlagsAfter(summaryStart, commentStart, lines[..i]); NextFlags(f.0, f.1, Classify(f.0, f.1, lines[i]))
  {
    PrefixAppend(lines, i);
    assert (rs + [r'])[..i + 1] == rs;
    FlagsAfterAppend(summaryStart, commentStart, lines[..i], lines[i]);
  }

  /** What create_data_container bundles. */
  datatype DataContainer = DataContainer(
    authorList: seq<Author>,
    authorDict: map<string, Author>,
    commitList: seq<Commit>,
    fileList: seq<File>,
    fileDict: map<string, File>,
    fileChangeList: seq<FileChange>)

  /** The records of a container, with no current author. */
  ghost function ContainerRecords(dc: DataContainer): Records
    reads dc.authorList`commits, dc.commitList`comment, dc.commitList`fileChanges
  {
    Records(dc.authorList, dc.authorDict, null, dc.commitList, dc.fileList, dc.fileDict, dc.fileChangeList,
            CommitLists(dc.authorList), Comments(dc.commitList), ChangeLists(dc.commitList))
  }

  ghost predicate ContainerValid(dc: DataContainer)
    reads dc.authorList`commits, dc.commitList`comment, dc.commitList`fileChanges
  {
    Registries(ContainerRecords(dc))
  }

  /** Every registered author of a container holds at least one commit, and
      every one of those commits is in the container's commit list. */
  lemma ContainerAuthorsHaveCommits(dc: DataContainer)
    requires ContainerValid(dc)
    ensures forall e :: e in dc.authorDict ==>
      |dc.authorDict[e].commits| > 0 && forall c :: c in dc.authorDict[e].commits ==> c in dc.commitList
  {
    forall e | e in dc.authorDict
      ensures |dc.authorDict[e].commits| > 0 && forall c :: c in dc.authorDict[e].commits ==> c in dc.commitList
    {
      var k := Position(dc.authorList, e);
      assert CommitLists(dc.authorList)[k] == dc.authorDict[e].commits;
    }
  }

  /** The commit's fields are the ones map_parameters picked out. */
  predicate CommitMatches(c: Commit, p: CommitParameters)
  {
    && c.shortHash == p.shortHash && c.commitEmail == p.commitEmail && c.branch == p.branch
    && ParseInt(p.authorTime) == Some(c.authorTime) && ParseInt(p.commitTime) == Some(c.commitTime)
  }

  // --------------------------------------------------------------- parser

  class Parser {
    var summaryStart: bool
    var commentStart: bool
    var authorDict: map<string, Author>
    var fileDict: map<string, File>
    var fileList: seq<File>
    var fileChangeList: seq<FileChange>
    var authorList: seq<Author>
    var commitList: seq<Commit>
    var currentAuthor: Author?

    /** The parser's records as they stand. */
    ghost function View(): Records
      reads this`authorList, this`authorDict, this`currentAuthor, this`commitList, this`fileList, this`fileDict,
            this`fileChangeList, authorList`commits, commitList`comment, commitList`fileChanges
    {
      Records(authorList, authorDict, currentAuthor, commitList, fileList, fileDict, fileChangeList,
              CommitLists(authorList), Comments(commitList), ChangeLists(commitList))
    }

    /** The class invariant: Valid() holds exactly when Consistent(View()),
        that is, when the records the parser holds are consistent (the
        quantifier over r == View() is that equation, kept folded). */
    ghost predicate Valid()
      reads this`authorList, this`authorDict, this`currentAuthor, this`commitList, this`fileList, this`fileDict,
            this`fileChangeList, authorList`commits, commitList`comment, commitList`fileChanges
    {
      forall r {:trigger Consistent(r)} :: r == View() ==> Consistent(r)
    }

    /** `Parser(file_path)`, with the file's lines handed in. */
    constructor (lines: seq<string>)
      requires Feedable(false, false, false, lines)
      ensures Valid()
      ensures exists rs :: Run(rs, false, false, lines) && rs[0] == NoRecords() && rs[|lines|] == View()
      ensures (summaryStart, commentStart) == FlagsAfter(false, false, lines)
      ensures |commitList| == SummaryLines(false, false, lines)
    {
      summaryStart, commentStart := false, false;
      authorDict, fileDict := map[], map[];
      fileList, fileChangeList, authorList, commitList := [], [], [], [];
      currentAuthor := null;
      new;
      assert View() == NoRecords();
      ReadCycle(lines);
    }

    /** `read_cycle`: every line in order through process_line. The records
        pass through a run of the lines, the flags end as the lines leave them,
        and every summary line adds a commit. */
    method ReadCycle(lines: seq<string>)
      requires Valid()
      requires Feedable(summaryStart, commentStart, commitList != [], lines)
      modifies this, authorList`commits, commitList`comment, commitList`fileChanges
      ensures Valid()
      ensures exists rs :: Run(rs, old(summaryStart), old(commentStart), lines) && rs[0] == old(View()) && rs[|lines|] == View()
      ensures (summaryStart, commentStart) == FlagsAfter(old(summaryStart), old(commentStart), lines)
      ensures |commitList| == |old(commitList)| + SummaryLines(old(summaryStart), old(commentStart), lines)
    {
      ghost var run := [View()];
      var i := 0;
      while i < |lines|
        invariant 0 <= i <= |lines|
        invariant Valid()
        invariant Run(run, old(summaryStart), old(commentStart), lines[..i]) && run[0] == old(View()) && run[i] == View()
        invariant (summaryStart, commentStart) == FlagsAfter(old(summaryStart), old(commentStart), lines[..i])
        invariant Feedable(summaryStart, commentStart, commitList != [], lines[i..])
        invariant |commitList| + SummaryLines(summaryStart, commentStart, lines[i..])
               == |old(commitList)| + SummaryLines(old(summaryStart), old(commentStart), lines)
        invariant |old(authorList)| <= |authorList| && forall i :: 0 <= i < |old(authorList)| ==> authorList[i] == old(authorList)[i]
        invariant forall i :: |old(authorList)| <= i < |authorList| ==> fresh(authorList[i])
        invariant |old(commitList)| <= |commitList| && forall i :: 0 <= i < |old(commitList)| ==> commitList[i] == old(commitList)[i]
        invariant forall i :: |old(commitList)| <= i < |commitList| ==> fresh(commitList[i])
      {
        run := ReadLine(lines, i, old(summaryStart), old(commentStart), run);
        i := i + 1;
      }
      assert lines[..|lines|] == lines;
    }

    /** One pass of read_cycle's loop: line i goes through process_line, and
        the run over the lines before it grows by one step. */
    method ReadLine(lines: seq<string>, i: nat, ghost summary0: bool, ghost comment0: bool, ghost run: seq<Records>)
      returns (ghost run': seq<Records>)
      requires i < |lines| && Valid()
      requires Run(run, summary0, comment0, lines[..i]) && run[i] == View()
      requires (summaryStart, commentStart) == FlagsAfter(summary0, comment0, lines[..i])
      requires Feedable(summaryStart, commentStart, commitList != [], lines[i..])
      modifies this, authorList`commits, commitList`comment, commitList`fileChanges
      ensures Valid()
      ensures Run(run', summary0, comment0, lines[..i + 1]) && run'[0] == run[0] && run'[i + 1] == View()
      ensures (summaryStart, commentStart) == FlagsAfter(summary0, comment0, lines[..i + 1])
      ensures Feedable(summaryStart, commentStart, commitList != [], lines[i + 1..])
      ensures |commitList| + SummaryLines(summaryStart, commentStart, lines[i + 1..])
           == |old(commitList)| + SummaryLines(old(summaryStart), old(commentStart), lines[i..])
      ensures |old(authorList)| <= |authorList| && forall i :: 0 <= i < |old(authorList)| ==> authorList[i] == old(authorList)[i]
      ensures forall i :: |old(authorList)| <= i < |authorList| ==> fresh(authorList[i])
      ensures |old(commitList)| <= |commitList| && forall i :: 0 <= i < |old(commitList)| ==> commitList[i] == old(commitList)[i]
      ensures forall i :: |old(commitList)| <= i < |commitList| ==> fresh(commitList[i])
    {
      assert lines[i..][1..] == lines[i + 1..];
      ProcessLine(lines[i]);
      RunExtend(run, summary0, comment0, lines, i, View());
      run' := run + [View()];
    }

    /** `process_line`: one step of the records, which stay consistent; only
        a summary line adds a commit. */
    method ProcessLine(line: string)
      requires Valid()
      requires Admissible(Classify(summaryStart, commentStart, line), commitList != [], line)
      modifies this, authorList`commits, commitList`comment, commitList`fileChanges
      ensures Valid()
      ensures StepTaken(old(View()), old(summaryStart), old(commentStart), line, View())
      ensures (summaryStart, commentStart)
           == NextFlags(old(summaryStart), old(commentStart), Classify(old(summaryStart), old(commentStart), line))
      ensures |commitList| == |old(commitList)| + (if Classify(old(summaryStart), old(commentStart), line) == AddCommit then 1 else 0)
      ensures |old(authorList)| <= |authorList| && forall i :: 0 <= i < |old(authorList)| ==> authorList[i] == old(authorList)[i]
      ensures forall i :: |old(authorList)| <= i < |authorList| ==> fresh(authorList[i])
      ensures |old(commitList)| <= |commitList| && forall i :: 0 <= i < |old(commitList)| ==> commitList[i] == old(commitList)[i]
      ensures forall i :: |old(commitList)| <= i < |commitList| ==> fresh(commitList[i])
    {
      ghost var before := View();
      ghost var flags := (summaryStart, commentStart);
      assert Consistent(before);
      Dispatch(line);
      StepKeepsConsistent(before, flags.0, flags.1, line, View());
    }

    /** The if-chain of process_line: the line is classified by the flags and
        its prefix, in the order of the source's branches (see Classify), and
        handed to its branch. */
    method Dispatch(line: string)
      requires Consistent(View())
      requires Admissible(Classify(summaryStart, commentStart, line), commitList != [], line)
      modifies this, authorList`commits, commitList`comment, commitList`fileChanges
      ensures (summaryStart, commentStart)
           == NextFlags(old(summaryStart), old(commentStart), Classify(old(summaryStart), old(commentStart), line))
      ensures Step(old(View()), old(summaryStart), old(commentStart), line, View())
      ensures |old(authorList)| <= |authorList| && forall i :: 0 <= i < |old(authorList)| ==> authorList[i] == old(authorList)[i]
      ensures forall i :: |old(authorList)| <= i < |authorList| ==> fresh(authorList[i])
      ensures |old(commitList)| <= |commitList| && forall i :: 0 <= i < |old(commitList)| ==> commitList[i] == old(commitList)[i]
      ensures forall i :: |old(commitList)| <= i < |commitList| ==> fresh(commitList[i])
    {
      match Classify(summaryStart, commentStart, line)
      case Skip =>
      case OpenSummary =>
        SetFlags(true, commentStart);
      case OpenComment =>
        SetFlags(false, true);
      case CloseComment =>
        SetFlags(summaryStart, false);
      case AppendComment =>
        CommentLine(line);
      case AddCommit =>
        SummaryLine(line);
      case AddFileChange =>
        NumstatLine(line);
    }

    /** The marker branches of process_line set the two flags, which are no
        part of the records. */
    method SetFlags(summary: bool, comment: bool)
      modifies this`summaryStart, this`commentStart
      ensures summaryStart == summary && commentStart == comment
      ensures View() == old(View())
    {
      summaryStart, commentStart := summary, comment;
    }

    /** The comment branch of process_line. */
    method CommentLine(line: string)
      requires Consistent(View()) && Classify(summaryStart, commentStart, line) == AppendComment && commitList != []
      modifies commitList`comment
      ensures Step(old(View()), summaryStart, commentStart, line, View())
      ensures summaryStart == old(summaryStart) && commentStart == old(commentStart)
    {
      LatestCommitOfCurrentAuthor();
      InitComment(line);
    }

    /** The summary branch of process_line. */
    method SummaryLine(line: string)
      requires Consistent(View()) && Classify(summaryStart, commentStart, line) == AddCommit && SummaryWellFormed(line)
      modifies this`commitList, this`authorList, this`authorDict, this`currentAuthor, authorList`commits
      ensures Step(old(View()), summaryStart, commentStart, line, View())
      ensures summaryStart == old(summaryStart) && commentStart == old(commentStart)
      ensures |old(authorList)| <= |authorList| && forall i :: 0 <= i < |old(authorList)| ==> authorList[i] == old(authorList)[i]
      ensures forall i :: |old(authorList)| <= i < |authorList| ==> fresh(authorList[i])
      ensures |old(commitList)| <= |commitList| && forall i :: 0 <= i < |old(commitList)| ==> commitList[i] == old(commitList)[i]
      ensures forall i :: |old(commitList)| <= i < |commitList| ==> fresh(commitList[i])
    {
      InitCommitFromSummary(line);
    }

    /** The numstat branch of process_line. */
    method NumstatLine(line: string)
      requires Consistent(View()) && Classify(summaryStart, commentStart, line) == AddFileChange
      requires Admissible(AddFileChange, commitList != [], line)
      modifies this`fileDict, this`fileList, this`fileChangeList, commitList`fileChanges
      ensures Step(old(View()), summaryStart, commentStart, line, View())
      ensures summaryStart == old(summaryStart) && commentStart == old(commentStart)
    {
      if commitList != [] {
        LatestCommitOfCurrentAuthor();
      } else {
        RejectedIsUnregistered(fileList, fileDict, Split(line, '\t')[2]);
      }
      InitFileChange(line);
    }

    /** The current author's latest commit is the latest commit read, and that
        object sits nowhere earlier in the commit list. */
    ghost predicate LatestCommitHeld()
      reads this`commitList, this`currentAuthor, currentAuthor
    {
      && commitList != [] && currentAuthor != null && currentAuthor.commits != []
      && Last(currentAuthor.commits) == Last(commitList)
      && forall i :: 0 <= i < |commitList| - 1 ==> commitList[i] != Last(commitList)
    }

    /** Once a commit was read, the current author holds the latest one. */
    lemma LatestCommitOfCurrentAuthor()
      requires Consistent(View()) && commitList != []
      ensures LatestCommitHeld() && currentAuthor in authorList
    {
      var k := Position(authorList, currentAuthor.email);
      assert CommitLists(authorList)[k] == currentAuthor.commits;
    }

    /** `init_comment`: the comment goes to the current author's latest commit,
        which is the latest commit read. */
    method InitComment(line: string)
      requires LatestCommitHeld()
      modifies commitList`comment
      ensures View() == WithComment(old(View()), line)
    {
      ghost var before := Comments(commitList);
      var commit := currentAuthor.commits[|currentAuthor.commits| - 1];
      commit.comment := commit.comment + line + " ";
      assert commit.comment == before[|commitList| - 1] + (line + " ");
      CommentsAfterAppend(commitList, before, |commitList| - 1, line + " ");
    }

    /** `init_commit_from_summary`. */
    method InitCommitFromSummary(line: string)
      requires SummaryWellFormed(line) && AuthorRegistry(authorList, authorDict)
      modifies this`commitList, this`authorList, this`authorDict, this`currentAuthor, authorList`commits
      ensures |commitList| > 0 && |authorList| > 0
      ensures fresh(Last(commitList)) && CommitMatches(Last(commitList), MapParameters(line).0)
      ensures Last(commitList) !in old(commitList)
      ensures MapParameters(line).1 !in old(authorDict) ==> Last(authorList).email == MapParameters(line).1
      ensures View() == WithCommit(old(View()), MapParameters(line).1, Last(commitList), Last(authorList))
      ensures |old(authorList)| <= |authorList| && forall i :: 0 <= i < |old(authorList)| ==> authorList[i] == old(authorList)[i]
      ensures forall i :: |old(authorList)| <= i < |authorList| ==> fresh(authorList[i])
      ensures |old(commitList)| <= |commitList| && forall i :: 0 <= i < |old(commitList)| ==> commitList[i] == old(commitList)[i]
      ensures forall i :: |old(commitList)| <= i < |commitList| ==> fresh(commitList[i])
    {
      var parameters := MapParameters(line);
      var fields, email := parameters.0, parameters.1;
      var commit := new Commit(fields.shortHash, fields.authorTime, fields.commitEmail, fields.commitTime, fields.branch);
      if email !in authorDict {
        RecordCommitOfNewAuthor(commit, email);
      } else {
        RecordCommitOfKnownAuthor(commit, email);
      }
    }

    /** The rest of init_commit_from_summary for an email already registered:
        the commit joins the list, and the registered author becomes the
        current author and takes the commit. */
    method RecordCommitOfKnownAuthor(commit: Commit, email: string)
      requires AuthorRegistry(authorList, authorDict) && email in authorDict
      requires commit !in commitList && commit.comment == "" && commit.fileChanges == []
      modifies this`commitList, this`currentAuthor, authorList`commits
      ensures View() == WithCommit(old(View()), email, commit, authorDict[email])
    {
      ghost var v0 := View();
      AppendCommit(commit);
      ghost var k := Position(authorList, email);
      DistinctAuthorObjects(authorList);
      MakeCurrent(authorDict[email]);
      FileCommit(k, commit);
      WithCommitSteps(v0, email, commit, currentAuthor, k);
    }

    /** The rest of init_commit_from_summary for an unseen email: the commit
        joins the list, and a new author, listed last and registered under the
        email, becomes the current author and takes the commit. */
    method RecordCommitOfNewAuthor(commit: Commit, email: string)
      requires AuthorRegistry(authorList, authorDict) && email !in authorDict
      requires commit !in commitList && commit.comment == "" && commit.fileChanges == []
      modifies this`commitList, this`authorList, this`authorDict, this`currentAuthor
      ensures |authorList| > 0 && fresh(Last(authorList)) && Last(authorList).email == email
      ensures authorList == old(authorList) + [Last(authorList)]
      ensures View() == WithCommit(old(View()), email, commit, Last(authorList))
    {
      ghost var v0 := View();
      assert forall i :: 0 <= i < |authorList| ==> authorList[i].email != email;
      AppendCommit(commit);
      var author := RegisterAuthor(email);
      ghost var list := authorList;
      assert list == old(authorList) + [author] && Last(list) == author;
      MakeCurrent(author);
      FileCommit(|authorList| - 1, commit);
      WithCommitSteps(v0, email, commit, author, |authorList| - 1);
      assert authorList == list;
    }

    /** The author becomes the current one; nothing else changes. */
    method MakeCurrent(author: Author)
      modifies this`currentAuthor
      ensures View() == old(View()).(currentAuthor := author)
    {
      currentAuthor := author;
    }

    /** The commit joins the list with an empty comment and no changes. */
    method AppendCommit(commit: Commit)
      requires commit !in commitList && commit.comment == "" && commit.fileChanges == []
      modifies this`commitList
      ensures View() == old(View()).(commitList := old(commitList) + [commit],
                                     comments := old(View()).comments + [""],
                                     commitChanges := old(View()).commitChanges + [[]])
    {
      commitList := commitList + [commit];
    }

    /** An unseen email gets a new author with no commits, listed last and
        registered under it. */
    method RegisterAuthor(email: string) returns (author: Author)
      modifies this`authorList, this`authorDict
      ensures fresh(author) && author.email == email
      ensures View() == old(View()).(authorList := old(authorList) + [author],
                                     authorDict := old(authorDict)[email := author],
                                     authorCommits := old(View()).authorCommits + [[]])
    {
      author := new Author(email);
      authorList := authorList + [author];
      authorDict := authorDict[author.email := author];
    }

    /** The last step of init_commit_from_summary: the current author, the k-th
        in the list, takes the commit; no other author's commits move. */
    method FileCommit(ghost k: nat, commit: Commit)
      requires k < |authorList| && currentAuthor == authorList[k]
      requires forall i :: 0 <= i < |authorList| && i != k ==> authorList[i] != authorList[k]
      modifies currentAuthor`commits
      ensures View() == old(View()).(authorCommits := old(View()).authorCommits[k := old(View()).authorCommits[k] + [commit]])
    {
      ghost var before := CommitLists(authorList);
      currentAuthor.commits := currentAuthor.commits + [commit];
      CommitListsAfterAppend(authorList, before, k, commit);
    }

    /** `init_file_change`. */
    method InitFileChange(line: string)
      requires FileChangeWellFormed(line)
      requires LatestCommitHeld() || (Split(line, '\t')[2] !in fileDict && NewFile(Split(line, '\t')[2]).Failure?)
      modifies this`fileDict, this`fileList, this`fileChangeList, commitList`fileChanges
      ensures View() == WithFileChange(old(View()), Split(line, '\t')[2], Split(line, '\t')[0], Split(line, '\t')[1])
    {
      ghost var before := View();
      var parameters := Split(line, '\t');
      var additions, deletions, filePath := parameters[0], parameters[1], parameters[2];
      if filePath !in fileDict {
        var file := NewFile(filePath);
        if file.Failure? {
          return;
        }
        RegisterFile(file.value);
      }
      var file := fileDict[filePath];
      var fileChange := MakeFileChange(file, additions, deletions);
      var commit := currentAuthor.commits[|currentAuthor.commits| - 1];
      RecordChange(fileChange, commit);
      WithFileChangeRecords(before, filePath, additions, deletions, file);
    }

    /** The middle step of init_file_change: an accepted File is registered
        under its path and listed; nothing else moves. */
    method RegisterFile(file: File)
      modifies this`fileDict, this`fileList
      ensures View() == old(View()).(fileDict := old(fileDict)[file.path := file], fileList := old(fileList) + [file])
    {
      fileDict := fileDict[file.path := file];
      fileList := fileList + [file];
    }

    /** The last steps of init_file_change: the change joins the flat list and
        the current author's latest commit, which is the latest commit read; no
        other commit's changes move. */
    method RecordChange(fileChange: FileChange, latest: Commit)
      requires LatestCommitHeld() && latest == Last(commitList)
      modifies this`fileChangeList, latest`fileChanges
      ensures View() == old(View()).(fileChangeList := old(fileChangeList) + [fileChange],
                                     commitChanges := old(View()).commitChanges[|commitList| - 1 := Last(old(View()).commitChanges) + [fileChange]])
    {
      ghost var before := ChangeLists(commitList);
      fileChangeList := fileChangeList + [fileChange];
      latest.fileChanges := latest.fileChanges + [fileChange];
      ChangeListsAfterAppend(commitList, before, |commitList| - 1, fileChange);
    }

    /** `create_data_container`. */
    function CreateDataContainer(): (dc: DataContainer)
      requires Valid()
      reads this`authorList, this`authorDict, this`currentAuthor, this`commitList, this`fileList, this`fileDict,
            this`fileChangeList, authorList`commits, commitList`comment, commitList`fileChanges
      ensures ContainerValid(dc)
      ensures dc.authorList == authorList && dc.authorDict == authorDict && dc.commitList == commitList
      ensures dc.fileList == fileList && dc.fileDict == fileDict && dc.fileChangeList == fileChangeList
    {
      assert Consistent(View());
      DataContainer(authorList, authorDict, commitList, fileList, fileDict, fileChangeList)
    }
  }
}

=== FILE: statistics.dfy ===
/** The per-author metrics of statistics.py. A Statistics object holds the
    container's author and file registries; extract_statistics attaches one
    Metrics record to every author, computed from the author's commit list.
    Every metric depends only on what each commit records: its author time,
    whether its comment marks a merge, and its file changes. The metrics are
    therefore specified as functions of those facts, and the methods that
    walk the commit objects are proved to compute them. Author times are
    whole seconds and every ratio is an exact real. */
module StatisticsEngine {
  import opened Wrappers
  import opened Text
  import opened Models
  import opened LogParser

  /** DAY_THRESHOLD: a commit eight hours or more before the previous one opens a new day. */
  const SessionGap: int := 8 * 60 * 60
  /** The cap of eighteen hours on the span of one day. */
  const SpanCap: int := 18 * 60 * 60

  // ------------------------------------------------------- commit facts

  /** What the metrics read of one commit. */
  datatype CommitFacts = CommitFacts(authorTime: int, comment: string, changes: seq<FileChange>)
  {
    /** `is_merge_commit` on the facts; FactsMerge states that it agrees with Commit.IsMergeCommit. */
    predicate IsMerge()
    {
      Contains(comment, MergeMarker)
    }
  }

  function FactsOf(c: Commit): CommitFacts
    reads c`comment, c`fileChanges
  {
    CommitFacts(c.authorTime, c.comment, c.fileChanges)
  }

  /** The facts of a commit are a merge exactly when the commit is one. */
  lemma FactsMerge(c: Commit)
    ensures FactsOf(c).IsMerge() <==> c.IsMergeCommit()
  {
  }

  /** The facts of each commit, in order (FactsAt states what each entry holds). */
  function Facts(commits: seq<Commit>): (facts: seq<CommitFacts>)
    reads commits`comment, commits`fileChanges
    ensures |facts| == |commits|
  {
    FactsUpTo(commits, |commits|)
  }

  /** The first n entries of Facts, built by counting up. */
  function FactsUpTo(commits: seq<Commit>, n: nat): (facts: seq<CommitFacts>)
    requires n <= |commits|
    reads commits`comment, commits`fileChanges
    ensures |facts| == n
  {
    if n == 0 then [] else FactsUpTo(commits, n - 1) + [FactsOf(commits[n - 1])]
  }

  /** Entry i of Facts holds the facts of commit i. */
  lemma FactsAt(commits: seq<Commit>)
    ensures forall i {:trigger Facts(commits)[i]} :: 0 <= i < |commits| ==> Facts(commits)[i] == FactsOf(commits[i])
  {
    FactsUpToAt(commits, |commits|);
  }

  lemma {:induction false} FactsUpToAt(commits: seq<Commit>, n: nat)
    requires n <= |commits|
    ensures forall i {:trigger FactsUpTo(commits, n)[i]} :: 0 <= i < n ==> FactsUpTo(commits, n)[i] == FactsOf(commits[i])
  {
    if n > 0 {
      FactsUpToAt(commits, n - 1);
    }
  }

  // ------------------------------------------------------- ratios

  lemma RatioScales(a: int, b: int)
    requires 0 < b
    ensures (a as real) / (b as real) * (b as real) == a as real
  {
  }

  lemma RatioNonNegative(a: int, b: int)
    requires 0 <= a && 0 < b
    ensures 0.0 <= (a as real) / (b as real)
  {
  }

  lemma RatioAtMostOne(a: int, b: int)
    requires a <= b && 0 < b
    ensures (a as real) / (b as real) <= 1.0
  {
  }

  lemma RatioAtLeastOne(a: int, b: int)
    requires 0 < b <= a
    ensures 1.0 <= (a as real) / (b as real)
  {
  }

  lemma RatioAtMostNumerator(a: int, b: int)
    requires 0 <= a && 0 < b
    ensures (a as real) / (b as real) <= a as real
  {
  }

  lemma RatioMonotone(a: int, b: int, c: int)
    requires a <= b && 0 < c
    ensures (a as real) / (c as real) <= (b as real) / (c as real)
  {
  }

  // ------------------------------------------------------- commits per day

  /** The state of get_commits_per_day's loop: the commit count of each day
      so far, the time of the previous commit and the span of the current day. */
  datatype Tally = Tally(days: seq<int>, time: int, span: int)

  /** One pass of the loop for a commit at time t: it joins the current day
      when it is less than eight hours before the previous commit and the day
      spans less than eighteen hours, and opens a day of its own otherwise. */
  function Visit(x: Tally, t: int): Tally
    requires x.days != []
  {
    if t > x.time - SessionGap && x.span < SpanCap then
      Tally(x.days[|x.days| - 1 := x.days[|x.days| - 1] + 1], t, x.time - t)
    else
      Tally(x.days + [1], t, 0)
  }

  /** The loop's state after the first n commits (of author times `times`),
      starting from one empty day at the first commit's time. */
  function Walk(times: seq<int>, n: nat): (x: Tally)
    requires 0 < |times| && n <= |times|
    ensures x.days != []
  {
    if n == 0 then Tally([0], times[0], 0) else Visit(Walk(times, n - 1), times[n - 1])
  }

  /** Commit i opens a new day when it comes eight hours or more before commit i - 1. */
  predicate OpensDay(times: seq<int>, i: nat)
    requires 0 < i < |times|
  {
    times[i] <= times[i - 1] - SessionGap
  }

  /** The reference count of days among the first n commits: the first
      commit's day plus one for every gap of eight hours or more. */
  function Days(times: seq<int>, n: nat): (d: nat)
    requires 0 < n <= |times|
    ensures 1 <= d <= n
  {
    if n == 1 then 1 else Days(times, n - 1) + (if OpensDay(times, n - 1) then 1 else 0)
  }

  /** After the first n commits the loop holds one day per gap of eight hours
      or more, every day holds at least one commit, the day counts add up to
      n, and the current span stays under eight hours, so the eighteen-hour
      cap never decides a step. */
  lemma WalkSpec(times: seq<int>, n: nat)
    requires 0 < n <= |times|
    ensures var x := Walk(times, n);
      |x.days| == Days(times, n) && Models.Sum(x.days) == n &&
      (forall i :: 0 <= i < |x.days| ==> x.days[i] >= 1) &&
      x.time == times[n - 1] && x.span < SessionGap
  {
    WalkShape(times, n);
    WalkCounts(times, n);
  }

  /** The day structure of the loop: one day per gap, the previous time and a span under eight hours. */
  lemma {:induction false} WalkShape(times: seq<int>, n: nat)
    requires 0 < n <= |times|
    ensures var x := Walk(times, n);
      |x.days| == Days(times, n) && x.time == times[n - 1] && x.span < SessionGap
  {
    if n > 1 {
      WalkShape(times, n - 1);
    }
  }

  /** The day counts of the loop: each at least one, together n. */
  lemma {:induction false} WalkCounts(times: seq<int>, n: nat)
    requires 0 < n <= |times|
    ensures var x := Walk(times, n);
      Models.Sum(x.days) == n && forall i :: 0 <= i < |x.days| ==> x.days[i] >= 1
  {
    if n == 1 {
      assert Walk(times, 1).days == [1];
      assert Models.Sum([1]) == Models.Sum([]) + 1;
    } else {
      WalkCounts(times, n - 1);
      var x := Walk(times, n - 1);
      if Walk(times, n).days == x.days + [1] {
        SumAppend(x.days, 1);
      } else {
        SumBump(x.days, |x.days| - 1);
      }
    }
  }

  /** The span cap never changes a step: each step of the loop is the step
      that looks only at the eight-hour gap. */
  lemma CapNeverDecides(times: seq<int>, n: nat)
    requires 0 < n < |times|
    ensures var x := Walk(times, n);
      Walk(times, n + 1) ==
        if OpensDay(times, n) then Tally(x.days + [1], times[n], 0)
        else Tally(x.days[|x.days| - 1 := x.days[|x.days| - 1] + 1], times[n], times[n - 1] - times[n])
  {
    WalkSpec(times, n);
  }

  /** The author times of the commits, in order. */
  function Times(facts: seq<CommitFacts>): (times: seq<int>)
    ensures |times| == |facts| && forall i :: 0 <= i < |facts| ==> times[i] == facts[i].authorTime
  {
    seq(|facts|, i requires 0 <= i < |facts| => facts[i].authorTime)
  }

  /** The average number of commits per working day: at least one, and at
      most all the commits. */
  function CommitsPerDay(facts: seq<CommitFacts>): (r: real)
    requires |facts| > 0
    ensures 1.0 <= r <= |facts| as real
  {
    var days := Days(Times(facts), |facts|);
    RatioAtLeastOne(|facts|, days);
    RatioAtMostNumerator(|facts|, days);
    (|facts| as real) / (days as real)
  }

  /** get_commits_per_day: walks the commits in log order, grouping them into
      days, and averages the day counts. */
  method GetCommitsPerDay(commits: seq<Commit>) returns (r: real)
    requires |commits| > 0
    ensures r == CommitsPerDay(Facts(commits))
  {
    FactsAt(commits);
    ghost var times := Times(Facts(commits));
    var dayAverages: seq<int> := [0];
    var currentTime := commits[0].authorTime;
    var currentDaySpan := 0;
    var i := 0;
    while i < |commits|
      invariant 0 <= i <= |commits|
      invariant Walk(times, i) == Tally(dayAverages, currentTime, currentDaySpan)
    {
      var commit := commits[i];
      if commit.authorTime > currentTime - SessionGap && currentDaySpan < SpanCap {
        dayAverages := dayAverages[|dayAverages| - 1 := dayAverages[|dayAverages| - 1] + 1];
        currentDaySpan := currentTime - commit.authorTime;
      } else {
        dayAverages := dayAverages + [1];
        currentDaySpan := 0;
      }
      currentTime := commit.authorTime;
      i := i + 1;
    }
    WalkSpec(times, |commits|);
    r := (Models.Sum(dayAverages) as real) / (|dayAverages| as real);
  }

  // ------------------------------------------------------- files per commit

  /** The number of file changes of all the commits. */
  function FileChangeCount(facts: seq<CommitFacts>): nat
  {
    if facts == [] then 0 else FileChangeCount(facts[..|facts| - 1]) + |facts[|facts| - 1].changes|
  }

  /** The average number of changed files per commit: never negative, and
      times the number of commits it gives back the number of file changes. */
  function FilesPerCommit(facts: seq<CommitFacts>): (r: real)
    requires |facts| > 0
    ensures 0.0 <= r && r * (|facts| as real) == FileChangeCount(facts) as real
  {
    RatioNonNegative(FileChangeCount(facts), |facts|);
    RatioScales(FileChangeCount(facts), |facts|);
    (FileChangeCount(facts) as real) / (|facts| as real)
  }

  /** get_files_per_commit: lists the number of file changes of each commit
      and divides their sum by the number of commits. */
  method GetFilesPerCommit(commits: seq<Commit>) returns (r: real)
    requires |commits| > 0
    ensures r == FilesPerCommit(Facts(commits))
  {
    FactsAt(commits);
    ghost var facts := Facts(commits);
    var sumFiles: seq<int> := [];
    var i := 0;
    while i < |commits|
      invariant 0 <= i <= |commits|
      invariant Models.Sum(sumFiles) == FileChangeCount(facts[..i])
    {
      SumAppend(sumFiles, |commits[i].fileChanges|);
      sumFiles := sumFiles + [|commits[i].fileChanges|];
      i := i + 1;
      assert facts[..i][..i - 1] == facts[..i - 1];
    }
    assert facts[..|commits|] == facts;
    r := (Models.Sum(sumFiles) as real) / (|commits| as real);
  }

  // ---------------------------------------------------- commits under a size

  /** How many of the commits change fewer than n lines. */
  function CountUnder(facts: seq<CommitFacts>, n: int): (count: nat)
    ensures count <= |facts|
  {
    if facts == [] then 0
    else CountUnder(facts[..|facts| - 1], n) + (if TotalChanges(facts[|facts| - 1].changes) < n then 1 else 0)
  }

  /** A commit that changes fewer than n lines changes fewer than any m >= n,
      so raising the size limit never lowers the count. */
  lemma {:induction false} CountUnderMonotone(facts: seq<CommitFacts>, n: int, m: int)
    requires n <= m
    ensures CountUnder(facts, n) <= CountUnder(facts, m)
  {
    if facts != [] {
      CountUnderMonotone(facts[..|facts| - 1], n, m);
    }
  }

  /** Every commit counts exactly when none of them reaches the size limit. */
  lemma {:induction false} CountUnderAll(facts: seq<CommitFacts>, n: int)
    ensures CountUnder(facts, n) == |facts| <==> forall i :: 0 <= i < |facts| ==> TotalChanges(facts[i].changes) < n
  {
    if facts != [] {
      var init := facts[..|facts| - 1];
      CountUnderAll(init, n);
      assert forall i :: 0 <= i < |init| ==> init[i] == facts[i];
    }
  }

  /** The share of the commits that change fewer than n lines, within [0, 1]. */
  function ShareUnder(facts: seq<CommitFacts>, n: int): (r: real)
    requires |facts| > 0
    ensures 0.0 <= r <= 1.0
  {
    RatioNonNegative(CountUnder(facts, n), |facts|);
    RatioAtMostOne(CountUnder(facts, n), |facts|);
    (CountUnder(facts, n) as real) / (|facts| as real)
  }

  /** Raising the size limit never lowers the share. */
  lemma ShareUnderMonotone(facts: seq<CommitFacts>, n: int, m: int)
    requires |facts| > 0 && n <= m
    ensures ShareUnder(facts, n) <= ShareUnder(facts, m)
  {
    CountUnderMonotone(facts, n, m);
    RatioMonotone(CountUnder(facts, n), CountUnder(facts, m), |facts|);
  }

  /** get_commits_under: counts the commits whose number_of_changes is below
      the limit and divides by the number of commits. */
  method GetCommitsUnder(commits: seq<Commit>, numberOfLines: int) returns (r: real)
    requires |commits| > 0
    ensures r == ShareUnder(Facts(commits), numberOfLines)
  {
    FactsAt(commits);
    ghost var facts := Facts(commits);
    var validCommits := 0;
    var i := 0;
    while i < |commits|
      invariant 0 <= i <= |commits|
      invariant validCommits == CountUnder(facts[..i], numberOfLines)
    {
      var lines := commits[i].NumberOfChanges();
      if lines < numberOfLines {
        validCommits := validCommits + 1;
      }
      i := i + 1;
      assert facts[..i][..i - 1] == facts[..i - 1];
    }
    assert facts[..|commits|] == facts;
    r := (validCommits as real) / (|commits| as real);
  }

  // ------------------------------------------------------- line totals

  /** get_all_new_lines: the new lines of all the commits. */
  function AllNewLines(facts: seq<CommitFacts>): nat
  {
    if facts == [] then 0 else AllNewLines(facts[..|facts| - 1]) + TotalNewLines(facts[|facts| - 1].changes)
  }

  /** get_all_deleted_lines: the deleted lines of all the commits. */
  function AllDeletedLines(facts: seq<CommitFacts>): int
  {
    if facts == [] then 0 else AllDeletedLines(facts[..|facts| - 1]) + TotalDeletions(facts[|facts| - 1].changes)
  }

  /** get_all_changed_lines: the changed lines of all the commits. */
  function AllChangedLines(facts: seq<CommitFacts>): int
  {
    if facts == [] then 0 else AllChangedLines(facts[..|facts| - 1]) + TotalChanges(facts[|facts| - 1].changes)
  }

  /** The new lines in test files of all the commits. */
  function AllTestNewLines(facts: seq<CommitFacts>): nat
  {
    if facts == [] then 0 else AllTestNewLines(facts[..|facts| - 1]) + TotalTestNewLines(facts[|facts| - 1].changes)
  }

  /** The totals split over a split of the commit list. */
  lemma {:induction false} TotalsConcat(a: seq<CommitFacts>, b: seq<CommitFacts>)
    ensures AllNewLines(a + b) == AllNewLines(a) + AllNewLines(b)
    ensures AllDeletedLines(a + b) == AllDeletedLines(a) + AllDeletedLines(b)
    ensures AllChangedLines(a + b) == AllChangedLines(a) + AllChangedLines(b)
    ensures AllTestNewLines(a + b) == AllTestNewLines(a) + AllTestNewLines(b)
  {
    if b == [] {
      assert a + b == a;
    } else {
      var b' := b[..|b| - 1];
      assert (a + b)[..|a + b| - 1] == a + b';
      TotalsConcat(a, b');
    }
  }

  /** New lines in test files are a part of all new lines. */
  lemma {:induction false} TestLinesWithinNewLines(facts: seq<CommitFacts>)
    ensures AllTestNewLines(facts) <= AllNewLines(facts)
  {
    if facts != [] {
      TestLinesWithinNewLines(facts[..|facts| - 1]);
      TestNewLinesBound(facts[|facts| - 1].changes);
    }
  }

  /** File changes whose counts are as git writes them: non-negative, with
      the new lines being the excess of additions over deletions. */
  predicate WellCounted(fcs: seq<FileChange>)
  {
    NonNegativeCounts(fcs) &&
    forall i :: 0 <= i < |fcs| ==>
      fcs[i].newLines == if fcs[i].additions > fcs[i].deletions then fcs[i].additions - fcs[i].deletions else 0
  }

  /** With counts as git writes them, new lines never exceed changed lines. */
  lemma {:induction false} NewLinesWithinChangedLines(facts: seq<CommitFacts>)
    requires forall i :: 0 <= i < |facts| ==> WellCounted(facts[i].changes)
    ensures AllNewLines(facts) <= AllChangedLines(facts)
  {
    if facts != [] {
      NewLinesWithinChangedLines(facts[..|facts| - 1]);
      NewLinesWithinChanges(facts[|facts| - 1].changes);
    }
  }

  /** get_test_line_ratio: the share of new lines that are in test files,
      within [0, 1] and zero exactly when no new line is in a test file. */
  function TestLineRatio(facts: seq<CommitFacts>): (ratio: real)
    requires AllNewLines(facts) != 0
    ensures 0.0 <= ratio <= 1.0
    ensures ratio == 0.0 <==> AllTestNewLines(facts) == 0
  {
    TestLinesWithinNewLines(facts);
    RatioNonNegative(AllTestNewLines(facts), AllNewLines(facts));
    RatioAtMostOne(AllTestNewLines(facts), AllNewLines(facts));
    RatioScales(AllTestNewLines(facts), AllNewLines(facts));
    (AllTestNewLines(facts) as real) / (AllNewLines(facts) as real)
  }

  /** get_added_lines_per_commit: the author's new lines over its number of
      commits, which times that number gives the new lines back. */
  function AddedLinesPerCommit(allNewLines: nat, commitCount: nat): (r: real)
    requires commitCount > 0
    ensures 0.0 <= r <= allNewLines as real
    ensures r * (commitCount as real) == allNewLines as real
  {
    RatioNonNegative(allNewLines, commitCount);
    RatioAtMostNumerator(allNewLines, commitCount);
    RatioScales(allNewLines, commitCount);
    (allNewLines as real) / (commitCount as real)
  }

  // ------------------------------------------------------- merge commits

  /** get_all_merge_commits: the number of merge commits, at most one per
      commit and zero exactly when no commit is a merge. */
  function MergeCommits(facts: seq<CommitFacts>): (count: nat)
    ensures count <= |facts|
    ensures count == 0 <==> forall i :: 0 <= i < |facts| ==> !facts[i].IsMerge()
  {
    if facts == [] then 0
    else
      var init := facts[..|facts| - 1];
      assert forall i :: 0 <= i < |init| ==> init[i] == facts[i];
      MergeCommits(init) + (if facts[|facts| - 1].IsMerge() then 1 else 0)
  }

  // ------------------------------------------------------- metrics

  /** The metrics extract_statistics attaches to an author whose commits have these facts. */
  function ExpectedMetrics(facts: seq<CommitFacts>): Metrics
    requires |facts| > 0 && AllNewLines(facts) != 0
  {
    Metrics(
      AllNewLines(facts),
      AllDeletedLines(facts),
      CommitsPerDay(facts),
      FilesPerCommit(facts),
      AddedLinesPerCommit(AllNewLines(facts), |facts|),
      ShareUnder(facts, 25),
      ShareUnder(facts, 500),
      TestLineRatio(facts),
      MergeCommits(facts))
  }

  /** The bounds every metric keeps: at least one and at most all commits a
      day, a non-negative file count, the small-commit shares ordered within [0, 1] (the share
      under 500 lines, which the source stores as commits_above_500, is never
      below the share under 25), a test-line ratio within [0, 1], and at
      most one merge per commit. */
  lemma MetricsSound(facts: seq<CommitFacts>)
    requires |facts| > 0 && AllNewLines(facts) != 0
    ensures var m := ExpectedMetrics(facts);
      1.0 <= m.commitsPerDay <= |facts| as real &&
      0.0 <= m.filesPerCommit &&
      0.0 <= m.commitsUnder25 <= m.commitsAbove500 <= 1.0 &&
      0.0 <= m.testLineRatio <= 1.0 &&
      m.mergeCommits <= |facts|
  {
    ShareUnderMonotone(facts, 25, 500);
  }

  /** The body of extract_statistics for one author: each metric in the
      order the source sets them, lines per commit from the new-line total
      just computed. */
  method AuthorMetrics(commits: seq<Commit>) returns (m: Metrics)
    requires |commits| > 0 && AllNewLines(Facts(commits)) != 0
    ensures m == ExpectedMetrics(Facts(commits))
  {
    var facts := Facts(commits);
    var allNewLines := AllNewLines(facts);
    var allDeletedLines := AllDeletedLines(facts);
    // The methods change nothing, so the facts stay those computed on entry.
    var perDay := GetCommitsPerDay(commits);
    assert Facts(commits) == facts;
    var filesPerCommit := GetFilesPerCommit(commits);
    assert Facts(commits) == facts;
    var linesPerCommit := AddedLinesPerCommit(allNewLines, |commits|);
    var under25 := GetCommitsUnder(commits, 25);
    assert Facts(commits) == facts;
    var above500 := GetCommitsUnder(commits, 500);
    assert Facts(commits) == facts;
    var ratio := TestLineRatio(facts);
    var merges := MergeCommits(facts);
    m := Metrics(allNewLines, allDeletedLines, perDay, filesPerCommit, linesPerCommit, under25, above500, ratio, merges);
  }

  /** The metrics attached to an author are those of its commit facts:
      whenever the facts are measurable (at least one commit and new lines
      not zero), metrics == Some(ExpectedMetrics(facts)). */
  ghost predicate Attached(facts: seq<CommitFacts>, metrics: Option<Metrics>)
  {
    forall f {:trigger ExpectedMetrics(f)} :: f == facts && |f| > 0 && AllNewLines(f) != 0 ==> metrics == Some(ExpectedMetrics(f))
  }

  // ------------------------------------------------------- Statistics

  /** One step of extract_statistics: attaches its metrics to one author. */
  method Measure(author: Author, ghost facts: seq<CommitFacts>)
    requires Facts(author.commits) == facts && |facts| > 0 && AllNewLines(facts) != 0
    modifies author`metrics
    ensures author.metrics == Some(ExpectedMetrics(facts))
  {
    var metrics := AuthorMetrics(author.commits);
    author.metrics := Some(metrics);
  }

  class Statistics {
    /** The container's authors, keyed by obfuscated email. */
    const authors: map<string, Author>
    /** The container's files, keyed by path. */
    const files: map<string, File>
    /** Declared by the source and never given a value. */
    var commitsPerDay: Option<real>

    constructor (dc: DataContainer)
      ensures authors == dc.authorDict && files == dc.fileDict && commitsPerDay == None
    {
      authors := dc.authorDict;
      files := dc.fileDict;
      commitsPerDay := None;
    }

    /** extract_statistics: attaches to every author the metrics of the
        facts its commits record on entry; only the authors' metrics change. */
    method ExtractStatistics()
      requires forall e :: e in authors ==> authors[e].email == e
      requires forall e {:trigger Facts(authors[e].commits)} :: e in authors ==> |authors[e].commits| > 0 && AllNewLines(Facts(authors[e].commits)) != 0
      modifies authors.Values`metrics
      ensures forall e :: e in authors ==> authors[e].metrics == Some(ExpectedMetrics(old(Facts(authors[e].commits))))
    {
      ghost var facts := map e | e in authors :: Facts(authors[e].commits);
      ghost var results: map<string, Metrics> := map[];
      var keys := authors.Keys;
      while keys != {}
        invariant keys <= authors.Keys
        invariant forall e :: e in results <==> e in authors && e !in keys
        invariant forall e :: e in results ==> authors[e].metrics == Some(results[e])
        invariant forall e :: e in results ==> Attached(facts[e], Some(results[e]))
        decreases keys
      {
        var e :| e in keys;
        results := MeasureKey(e, facts[e], results);
        keys := keys - {e};
      }
    }

    /** One pass of extract_statistics' loop: measures the author under key
        e and leaves the authors measured before it as they were. */
    method MeasureKey(e: string, ghost facts: seq<CommitFacts>, ghost results: map<string, Metrics>)
      returns (ghost results': map<string, Metrics>)
      requires forall k :: k in authors ==> authors[k].email == k
      requires e in authors && e !in results
      requires Facts(authors[e].commits) == facts && |facts| > 0 && AllNewLines(facts) != 0
      requires forall k :: k in results ==> k in authors && authors[k].metrics == Some(results[k])
      modifies {authors[e]}`metrics
      ensures results' == results[e := ExpectedMetrics(facts)]
      ensures forall k :: k in results' ==> authors[k].metrics == Some(results'[k])
    {
      Measure(authors[e], facts);
      results' := results[e := ExpectedMetrics(facts)];
    }
  }
}

=== FILE: text.dfy ===
/** The handful of Python string operations the log format relies on:
    slicing with negative and out-of-range bounds, `str.rfind`, the `in`
    substring test, `str.split` on a single character and `int()`. */
module Text {
  import opened Wrappers

  /** Python's normalisation of one slice bound against a sequence of length n. */
  function ClampIndex(i: int, n: nat): (k: nat)
    ensures k <= n
    ensures 0 <= i <= n ==> k == i
  {
    if i < 0 then (if i + n < 0 then 0 else i + n)
    else if i > n then n
    else i
  }

  /** `s[i:j]` as Python evaluates it. */
  function Slice(s: string, i: int, j: int): (r: string)
    ensures |r| <= |s|
    ensures 0 <= i <= j <= |s| ==> r == s[i..j]
    ensures j <= i && (i < 0) == (j < 0) ==> r == ""
  {
    var a, b := ClampIndex(i, |s|), ClampIndex(j, |s|);
    if a < b then s[a..b] else ""
  }

  /** `s.rfind(c)`: the highest index holding c, or -1. */
  function RFind(s: string, c: char): (r: int)
    ensures -1 <= r < |s|
  {
    LastBefore(s, c, |s|)
  }

  /** The highest index below n holding c, or -1. */
  function LastBefore(s: string, c: char, n: nat): (r: int)
    requires n <= |s|
    ensures -1 <= r < n
  {
    if n == 0 then -1
    else if s[n - 1] == c then n - 1
    else LastBefore(s, c, n - 1)
  }

  lemma {:induction false} LastBeforeSpec(s: string, c: char, n: nat)
    requires n <= |s|
    ensures LastBefore(s, c, n) == -1 <==> c !in s[..n]
    ensures LastBefore(s, c, n) >= 0 ==> s[LastBefore(s, c, n)] == c && c !in s[LastBefore(s, c, n) + 1..n]
  {
    if n > 0 {
      assert s[..n] == s[..n - 1] + [s[n - 1]];
      if s[n - 1] == c {
        assert LastBefore(s, c, n) == n - 1;
        assert s[n..n] == [];
      } else {
        LastBeforeSpec(s, c, n - 1);
        var r := LastBefore(s, c, n - 1);
        assert LastBefore(s, c, n) == r;
        if r >= 0 {
          assert s[r + 1..n] == s[r + 1..n - 1] + [s[n - 1]];
        }
      }
    }
  }

  /** rfind gives -1 exactly when c does not occur, and otherwise an index
      holding c with no c after it. */
  lemma RFindSpec(s: string, c: char)
    ensures RFind(s, c) == -1 <==> c !in s
    ensures RFind(s, c) >= 0 ==> s[RFind(s, c)] == c && c !in s[RFind(s, c) + 1..]
  {
    LastBeforeSpec(s, c, |s|);
    assert s[..|s|] == s;
  }

  /** Python's `t in s` for strings: t occurs in s as a contiguous block. */
  predicate Contains(s: string, t: string)
  {
    t <= s || (s != [] && Contains(s[1..], t))
  }

  /** t occurs in s starting at index k. */
  predicate OccursAt(s: string, t: string, k: int)
  {
    0 <= k && k + |t| <= |s| && s[k..k + |t|] == t
  }

  /** `Contains` agrees with the positional definition of a substring. */
  lemma {:induction false} ContainsAt(s: string, t: string)
    ensures Contains(s, t) <==> exists k :: OccursAt(s, t, k)
  {
    if t <= s {
      assert OccursAt(s, t, 0);
    } else if s == [] {
    } else {
      ContainsAt(s[1..], t);
      if Contains(s[1..], t) {
        var k :| OccursAt(s[1..], t, k);
        assert s[k + 1..k + 1 + |t|] == s[1..][k..k + |t|];
        assert OccursAt(s, t, k + 1);
      }
      if exists k :: OccursAt(s, t, k) {
        var k :| OccursAt(s, t, k);
        assert k != 0;
        assert s[1..][k - 1..k - 1 + |t|] == s[k..k + |t|];
        assert OccursAt(s[1..], t, k - 1);
      }
    }
  }

  /** A block found in a string is still found after text is added on either side. */
  lemma ContainsExtended(s: string, t: string, before: string, after: string)
    requires Contains(s, t)
    ensures Contains(before + s + after, t)
  {
    ContainsAt(s, t);
    var k :| OccursAt(s, t, k);
    var u := before + s + after;
    assert u[|before| + k..|before| + k + |t|] == s[k..k + |t|];
    assert OccursAt(u, t, |before| + k);
    ContainsAt(u, t);
  }

  /** A string shorter than t never contains it, and one of the same length only when equal. */
  lemma ContainsShort(s: string, t: string)
    requires |s| <= |t|
    ensures Contains(s, t) <==> s == t
  {
    ContainsAt(s, t);
    if s == t {
      assert OccursAt(s, t, 0);
    }
  }

  /** `s.split(sep)` for a one-character separator: never empty, and the
      pieces between separators, empty ones included. */
  function Split(s: string, sep: char): (parts: seq<string>)
    ensures |parts| >= 1
    ensures forall i :: 0 <= i < |parts| ==> sep !in parts[i]
  {
    if s == [] then [""]
    else
      var rest := Split(s[1..], sep);
      if s[0] == sep then [""] + rest
      else [[s[0]] + rest[0]] + rest[1..]
  }

  /** `sep.join(parts)`. */
  function Join(parts: seq<string>, sep: char): string
    requires |parts| >= 1
  {
    if |parts| == 1 then parts[0] else parts[0] + [sep] + Join(parts[1..], sep)
  }

  /** Splitting loses nothing: joining the pieces restores the string. */
  lemma {:induction false} JoinSplit(s: string, sep: char)
    ensures Join(Split(s, sep), sep) == s
  {
    if s != [] {
      var rest := Split(s[1..], sep);
      JoinSplit(s[1..], sep);
      if s[0] != sep {
        if |rest| == 1 {
          assert s == [s[0]] + rest[0];
        } else {
          assert Join(rest, sep) == rest[0] + [sep] + Join(rest[1..], sep);
          assert s == [s[0]] + rest[0] + [sep] + Join(rest[1..], sep);
        }
      }
    }
  }

  lemma {:induction false} SplitNoSeparator(a: string, sep: char)
    requires sep !in a
    ensures Split(a, sep) == [a]
  {
    if a != [] {
      SplitNoSeparator(a[1..], sep);
      assert [a[0]] + a[1..] == a;
    }
  }

  lemma {:induction false} SplitFirst(a: string, sep: char, r: string)
    requires sep !in a
    ensures Split(a + [sep] + r, sep) == [a] + Split(r, sep)
  {
    if a == [] {
      assert (a + [sep] + r)[1..] == r;
    } else {
      assert (a + [sep] + r)[1..] == a[1..] + [sep] + r;
      SplitFirst(a[1..], sep, r);
      assert [a[0]] + a[1..] == a;
    }
  }

  /** Joining pieces that hold no separator and splitting again gives the pieces back. */
  lemma {:induction false} SplitJoin(parts: seq<string>, sep: char)
    requires |parts| >= 1
    requires forall i :: 0 <= i < |parts| ==> sep !in parts[i]
    ensures Split(Join(parts, sep), sep) == parts
  {
    if |parts| == 1 {
      SplitNoSeparator(parts[0], sep);
    } else {
      SplitJoin(parts[1..], sep);
      SplitFirst(parts[0], sep, Join(parts[1..], sep));
      assert [parts[0]] + parts[1..] == parts;
    }
  }

  /** The ASCII characters Python's `int()` strips around a number: space, tab,
      line feed, vertical tab, form feed, carriage return and the separators
      0x1C to 0x1F. */
  predicate IsSpace(c: char)
  {
    c == ' ' || c == '\t' || c == '\n' || c == '\r' || c as int == 11 || c as int == 12
    || 28 <= c as int <= 31
  }

  predicate IsDigit(c: char)
  {
    '0' <= c <= '9'
  }

  predicate AllDigits(s: string)
  {
    forall i :: 0 <= i < |s| ==> IsDigit(s[i])
  }

  function StripLeft(s: string): string
  {
    if s != [] && IsSpace(s[0]) then StripLeft(s[1..]) else s
  }

  function StripRight(s: string): string
  {
    if s != [] && IsSpace(s[|s| - 1]) then StripRight(s[..|s| - 1]) else s
  }

  /** The value of a non-empty run of decimal digits. */
  function DigitsValue(s: string): nat
    requires AllDigits(s)
  {
    if s == [] then 0
    else DigitsValue(s[..|s| - 1]) * 10 + (s[|s| - 1] as int - '0' as int)
  }

  /** Python's `int(s)` on a string: surrounding white space, an optional
      sign and at least one digit; anything else raises ValueError (None). */
  function ParseInt(s: string): Option<int>
  {
    var t := StripRight(StripLeft(s));
    if t == [] then None
    else if t[0] == '-' || t[0] == '+' then
      if |t| > 1 && AllDigits(t[1..]) then
        Some(if t[0] == '-' then 0 - DigitsValue(t[1..]) else DigitsValue(t[1..]))
      else None
    else if AllDigits(t) then Some(DigitsValue(t))
    else None
  }

  /** The decimal rendering of a count, as git writes it in a numstat line. */
  function Decimal(n: nat): (s: string)
    ensures |s| >= 1 && AllDigits(s)
  {
    if n < 10 then [('0' as int + n) as char]
    else Decimal(n / 10) + [('0' as int + n % 10) as char]
  }

  lemma {:induction false} DecimalValue(n: nat)
    ensures DigitsValue(Decimal(n)) == n
  {
    if n >= 10 {
      var s := Decimal(n);
      assert s[..|s| - 1] == Decimal(n / 10);
      DecimalValue(n / 10);
    }
  }

  /** `int()` reads back every count git writes. */
  lemma ParseDecimal(n: nat)
    ensures ParseInt(Decimal(n)) == Some(n)
  {
    var s := Decimal(n);
    assert StripLeft(s) == s;
    assert StripRight(s) == s;
    DecimalValue(n);
  }

  /** git's marker for a binary file, "-", is not a number. */
  lemma DashIsNotANumber()
    ensures ParseInt("-") == None
  {
    assert StripLeft("-") == "-";
    assert StripRight("-") == "-";
  }
}

=== FILE: wrappers.dfy ===
/** Optional values and success/failure results, used where the source returns
    None or raises a recoverable exception. */
module Wrappers {

  datatype Option<T> = None | Some(value: T)

  datatype Result<T, E> = Success(value: T) | Failure(error: E)
}
